=== FILE: README.md ===
# cpplox core in Dafny

This project models the bytecode pipeline of cpplox, a C++ interpreter for the Lox
language in the style of "Crafting Interpreters". A program's text goes through three
stages:

- **Scanner** (`Scanner`): turns the source into tokens on demand. It skips
  whitespace and `//` comments, counts lines, and recognises identifiers and
  keywords, numbers, string literals and one- or two-character operators.
- **Compiler** (`Compiler`, `Precedences`, `Numbers`): a single-pass Pratt parser.
  It pulls tokens from the scanner and emits bytecode into a chunk.
  - It handles `var` declarations, `print` statements and expression statements.
  - Expressions are built from grouping, unary `!`/`-`, the ten binary operators,
    number, string and literal keywords.
  - Errors are reported with panic-mode recovery at statement boundaries.
- **Chunk** (`Chunks`): instruction bytes, a run-length encoded line table and a
  constant pool.
- **VM** (`Vm`): runs a chunk with a value stack and an arena of heap objects (only
  strings exist). It dispatches one opcode per step, and a non-number operand of an
  arithmetic operator is a runtime error.

The C++ classes mutate their state in place. Here each state is an immutable
datatype, and each mutating member is a function from the old state to the new one.

- Standard-error reports of the compiler become a list of `Diagnostic` values.
- A runtime error becomes a `Failed` step result carrying its message and the line
  the VM would print.
- Paths on which the C++ program has undefined behaviour or dies of an uncaught
  exception are kept out of the `Step` function by its precondition `CanStep`. Such
  paths are popping an empty `std::deque`, `.at()` out of range, and reading past the
  last byte. `Run` reports them as the outcome `Undefined`. One undefined read is not
  excluded: `runtimeError` reads the line table unchecked, and an offset past its end
  becomes a runtime error with no line (see `Vm.ReportedLine` under "Left out").

`Semantics` ties the stages together. It shows what the opcode sequences the
compiler emits for each operator compute when the machine runs them, against an
independent definition of what each operator means.

Opcode bytes are numbered in the order CONSTANT=0, NIL, TRUE, FALSE, POP,
DEFINE_GLOBAL, EQUAL, GREATER, LESS, ADD, SUBTRACT, MULTIPLY, DIVIDE, NOT, NEGATE,
PRINT, RETURN=16. The header that numbers the full set is not part of this model.
The enum in chunk.h (chunk.h:10-18) lists only seven of the opcodes.

## Model

| member | source | states |
|---|---|---|
| Values.GetType | value.h:15-29 | the reported type tag is Number, Bool, Nil or Object exactly when the value holds that alternative of the variant |
| Values.SameTypeSameAlternative | value.h:20-29 | two values with the same type tag hold the same alternative, which is what lets `valuesEqual` read both operands with the same `std::get` |
| Values.AddObject | vm.h:59-62 | adding an object keeps the arena as it was, places the new object in the one new slot, and returns that slot's index |
| Chunks.Decode | vm.cpp:58-115 | a byte names an opcode exactly when it is below 17, the number of opcodes the compiler and the VM name |
| Chunks.DecodeEncode | vm.cpp:58-115 | decoding the byte of an opcode gives that opcode back, and any byte that decodes to an opcode is that opcode's byte |
| Chunks.EncodeInjective | chunk.h:10-18 | distinct opcodes have distinct bytes |
| Chunks.Write | chunk.cpp:11-20 | appending a byte adds it to the code, adds its line to the decoded line table, keeps the table covering exactly the bytes, and grows the table by a new run only when the line differs from the last run's line |
| Chunks.ExtendRun | chunk.cpp:14-15 | incrementing the last run's length adds one more copy of its line to the decoded table and keeps the table well formed |
| Chunks.NewRun | chunk.cpp:16-18 | appending the run (1, line) adds that line to the decoded table, and the table stays well formed when the line differs from the previous run's |
| Chunks.EmptyValid | chunk.h:22-29 | a fresh chunk has no bytes, no runs and no constants, and its table covers its bytes |
| Chunks.Init | chunk.cpp:22 | `init` clears the bytes and leaves the line table and the constant pool as they were |
| Chunks.InitBreaksCoverage | chunk.cpp:22 | on a chunk holding bytes, `init` leaves runs behind that no longer cover the bytes |
| Chunks.AddConstant | chunk.cpp:39-43 | the value is appended to the pool and its index is the old pool size; the code and the line table are unchanged |
| Chunks.GetLine | chunk.cpp:24-37 | the loop that sums run lengths until they reach the index returns the line the run-by-run lookup defines |
| Chunks.LookupIsPreviousByteLine | chunk.cpp:24-37 | for an index from 1 up to the byte count, `getLine` reports the line of byte index-1 in the decoded table, and past the end it reports 0 |
| Chunks.GetLineOffByOne | chunk.cpp:24-37 | on a well-formed chunk, offset i is reported with the line of byte i-1, not byte i |
| Chunks.GetLineAtRunBoundary | chunk.cpp:29-33 | for two bytes written on lines 1 and 2, byte 1 is on line 2 but `getLine(1)` answers line 1 |
| Chunks.EncodeAllSnoc | compiler.cpp:184-187 | the bytes of a sequence of opcodes are the bytes of all but the last, then the byte of the last |
| Precedences.DeclaredOrder | compiler.h:15-27 | the precedences are strictly ordered as declared, from none to primary, and no two share an ordinal |
| Precedences.NextEnum | common.h:11-13 | `nextEnum` gives the enumerator whose ordinal is one higher |
| Precedences.NextEnumBounds | compiler.cpp:248-251 | the right operand of a binary operator parses at a strictly higher level than the operator, and at most at unary for the operators the rule table has |
| Precedences.OnlyNoneBelowAssignment | compiler.cpp:193 | parsing at assignment level stops only at a token whose precedence is none |
| Scanner.Init | scanner.cpp:4-8 | a new scanner starts at offset 0 on line 1 |
| Scanner.NewlinesSplit | scanner.cpp:72-73 | the newlines counted over a range are those of its two halves added together |
| Scanner.FollowsTrans | scanner.cpp:179-183 | advancing is transitive: the offset only grows, and the line grows by exactly the newlines passed over |
| Scanner.Match | scanner.cpp:185-194 | `match` succeeds exactly when the next character exists and is the expected one, and only then consumes it |
| Scanner.ToLineEnd | scanner.cpp:210-213 | a comment is skipped up to the next newline or the end of input, consuming at least one character when not already there |
| Scanner.SkipWhitespace | scanner.cpp:196-222 | after skipping, the next character is neither blank nor newline, and no `//` comment starts there; the line count grows by the newlines skipped |
| Scanner.SkipWhitespaceSkipsOnly | scanner.cpp:196-222 | every character `skipWhiteSpace` passes over is a blank, a newline, or the text of a `//` comment from its first `/` up to its newline |
| Scanner.ToLineEndNoNewline | scanner.cpp:213-215 | the comment loop stops before the first newline, so it passes over none |
| Scanner.MakeToken | scanner.cpp:168-172 | a token carries the given kind, the current line and the slice from start to the current offset |
| Scanner.ErrorToken | scanner.cpp:174-177 | an error token carries the message in place of a lexeme |
| Scanner.Substr | scanner.cpp:155 | `substr` reads at most the requested length, and exactly the slice when it fits |
| Scanner.CheckKeyword | scanner.cpp:152-161 | the keyword kind is returned exactly when the lexeme length is offset plus the rest's length and the text at absolute offset `offset` of the source is the rest; otherwise identifier |
| Scanner.CheckKeywordAtSourceStart | scanner.cpp:152-161 | for a lexeme at the very start of the source, the check answers the keyword exactly when the lexeme is the head followed by the rest |
| Scanner.OneKeyword | scanner.cpp:101-161 | one branch of the first-letter dispatch, at the source start, agrees with the keyword table |
| Scanner.KeywordsAtSourceStart | scanner.cpp:101-150 | for a lexeme that starts the source, `identifierType` returns the keyword the word spells, and identifier for every other word |
| Scanner.NilAfterPrintIsIdentifier | scanner.cpp:152-161 | in `print nil` the word `nil` is typed as an identifier, because the check compares the source from offset 1 rather than from the lexeme |
| Scanner.SecondVarIsKeyword | scanner.cpp:152-161 | in `var a; var b;` the second `var` is typed as the keyword, because the source also starts with `var` |
| Scanner.NonKeywordTypedVar | scanner.cpp:152-161 | in `var a; vxx` the word `vxx`, which is no keyword, is typed as `var`: its first letter and length match and the source starts with `var` |
| Scanner.MultiByteShiftsKeyword | scanner.cpp:136-161 | with the source held as bytes, `é` as the bytes C3 A9 at offsets 1 and 2 makes the check for `true` later in the source read A9 `u`, so that `true` is typed as an identifier |
| Scanner.IdentifierRest | scanner.cpp:63-66 | the identifier loop consumes only letters, digits and underscores, and stops before the first other character |
| Scanner.IdentifierToken | scanner.cpp:63-68 | an identifier token covers the consumed word and has the kind `identifierType` assigns it |
| Scanner.Digits | scanner.cpp:87-89 | the digit loop consumes only digits and stops before the first non-digit |
| Scanner.LeadingDigits | scanner.cpp:86-99 | the count of leading digits of a lexeme is exact: all of them are digits and the next character is not |
| Scanner.LeadingDigitsExact | scanner.cpp:86-99 | any k with k digits followed by a non-digit (or the end) is the count of leading digits |
| Scanner.NumberLexemeShape | scanner.cpp:86-99 | digits, optionally followed by a dot and at least one digit, form a number lexeme |
| Scanner.Fraction | scanner.cpp:91-96 | the fraction is taken only when a dot is followed by a digit, and the lexeme so far is a well-formed number |
| Scanner.NumberToken | scanner.cpp:86-99 | a number token's lexeme is one or more digits with an optional fraction of at least one digit, and no digit follows it; a lexeme without a `.` is never followed by a `.` and a digit, so an available fraction is always taken |
| Scanner.StringBody | scanner.cpp:71-76 | the string loop stops at the first `"` or at the end of input, passing over no quote, and counts the newlines inside the literal |
| Scanner.StringTokenShape | scanner.cpp:70-84 | a string token is an error exactly when no closing quote follows; otherwise its lexeme runs from the opening quote to the first closing quote, both included |
| Scanner.StringLiteral | scanner.cpp:56-57 | the same facts hold for the dispatch on `"`: an unterminated string reports "Unterminated string." and leaves the scanner at the end of input |
| Scanner.OneOrTwo | scanner.cpp:48-55 | a two-character operator is produced exactly when the next character is `=` |
| Scanner.OperatorKinds | scanner.cpp:48-55 | each of `!`, `=`, `<`, `>` has distinct one- and two-character kinds |
| Scanner.OperatorLookahead | scanner.cpp:48-55 | after `!`, `=`, `<` or `>` the two-character kind is produced exactly when `=` follows, and only then is the `=` consumed |
| Scanner.UnexpectedCharacter | scanner.cpp:60 | a character that starts no token is consumed alone and reported as "Unexpected character." |
| Scanner.ScanFrom | scanner.cpp:17-60 | every token scanned after its first character ends where the scanner stops, is not EOF, carries the scanned slice (or one of the two error messages), and is well formed |
| Scanner.FirstConsumed | scanner.cpp:11-17 | the token starts where whitespace skipping stopped, and its first character has been consumed |
| Scanner.ScanToken | scanner.cpp:10-61 | a token starts at or after the old offset; EOF is produced only at the end of input, with an empty lexeme; every other token is non-empty and carries its slice of the source, or an error message |
| Scanner.ScanTokenDispatch | scanner.cpp:10-25 | past the whitespace, scanning a token is the dispatch on its first character |
| Scanner.EofRepeats | scanner.cpp:12-15 | once the input is exhausted, scanning again returns the same EOF token from the same position |
| Scanner.ScanAll | scanner.cpp:10-61 | scanning to the end yields exactly one EOF token, as the last one, and at most one token per remaining character plus one |
| Numbers.DecimalValue | compiler.cpp:195 | the digits of a string denote a number below ten to the power of its length |
| Numbers.DecimalConcat | compiler.cpp:195 | reading the digits of a then b shifts a's value left by the length of b |
| Numbers.Stod | compiler.cpp:194-197 | a number lexeme converts to a non-negative value |
| Numbers.StodScaled | compiler.cpp:194-197 | a lexeme converts to the integer its digits spell without the dot, divided by ten per fraction digit |
| Numbers.StodIntegral | compiler.cpp:194-197 | a lexeme without a fraction converts to the integer its digits spell |
| Numbers.StodExample | compiler.cpp:194-197 | the lexeme `2.50` converts to 2.5 |
| Compiler.GetRule | compiler.cpp:302-386 | exactly `(`, `-`, `!`, numbers, strings and the three literal keywords have a prefix rule; a token has an infix rule, always `binary`, exactly when its precedence is not none; no precedence is above factor |
| Compiler.EqualityOperatorsDiffer | compiler.cpp:302-386 | `==` is given comparison precedence and `!=` equality precedence, so `==` binds tighter than `!=` |
| Compiler.GrowsTrans | compiler.cpp:16-27 | the relation "a later state of the same parse" (same input, bytes, constants, objects and diagnostics only appended) is transitive |
| Compiler.ErrorAt | compiler.cpp:161-178 | in panic mode an error is suppressed; otherwise exactly one diagnostic with the token's line and location is added; either way panic mode is on and nothing else changes |
| Compiler.PullToken | compiler.cpp:127-134 | the scanner loop returns a token that is not an error, consuming input unless that token is EOF; diagnostics are only appended, panic mode is entered only with a new diagnostic, and at the end of input it returns EOF and reports nothing |
| Compiler.Advance | compiler.cpp:125-135 | the current token becomes the previous one, the new current token is never an error, and input is consumed unless the current token was EOF |
| Compiler.Match | compiler.cpp:146-155 | `match` succeeds exactly when the current token has the kind, and then advances |
| Compiler.Consume | compiler.cpp:137-144 | the expected token is advanced over; any other is reported at the current token and puts the parser in panic mode |
| Compiler.Error | compiler.cpp:159 | an error at the previous token marks the parse as failed and leaves the tokens, bytes and objects as they were; it is the report `errorAt` makes at the previous token |
| Compiler.EmitByte | compiler.cpp:180-182 | a byte is appended with the previous token's line, and nothing else changes |
| Compiler.Emit | compiler.cpp:180-182 | emitting an opcode appends its byte, and nothing else changes |
| Compiler.EmitAll | compiler.cpp:184-187 | emitting a sequence of opcodes appends their bytes in order |
| Compiler.MakeConstant | compiler.cpp:215-223 | the value is always added to the pool; its index is returned when it is at most 255, and otherwise 0 is returned and the parser is the one `error` gives for "Too many constants in one chunk." at the previous token, with the value already added |
| Compiler.EmitConstant | compiler.cpp:211-213 | CONSTANT is emitted followed by the index of the value just added to the pool, or by 0 with an error once the index exceeds 255 |
| Compiler.AddString | compiler.cpp:207-209 | a new string object is appended to the arena, and the reference is its slot |
| Compiler.Number | compiler.cpp:194-197 | a number literal adds its converted value to the pool and emits CONSTANT with its index while the index fits a byte; no object is allocated |
| Compiler.String | compiler.cpp:199-205 | a string literal allocates an object holding the lexeme without its quotes, and adds a reference to it to the pool |
| Compiler.Unquote | compiler.cpp:199 | the text of a string lexeme is the lexeme without its first and last character (the two quotes) |
| Compiler.Literal | compiler.cpp:289-300 | a literal keyword emits the opcodes of its fall-through case: `false` emits FALSE NIL TRUE, `nil` emits NIL TRUE, `true` emits TRUE |
| Compiler.Unary | compiler.cpp:230-246 | the operand's code is followed by NOT for `!` and by NEGATE for `-` |
| Compiler.Binary | compiler.cpp:248-287 | the right operand is parsed one level above the operator, so it ends at a token of the same or lower precedence; its code is followed by the operator's opcodes (EQUAL NOT for `!=`, LESS NOT for `>=`, GREATER NOT for `<=`) |
| Compiler.OperandPrecedence | compiler.cpp:250-251 | the right operand's level is one above the operator's precedence, never none |
| Compiler.Expression | compiler.cpp:193 | an expression that starts with a prefix token is parsed up to a token with no infix rule |
| Compiler.ParsePrecedence | compiler.cpp:388-402 | a token without a prefix rule is consumed and then reported with "Expect expression.", and nothing is emitted; otherwise the loop stops at the first token that binds looser than the requested level; the input strictly shrinks unless at EOF |
| Compiler.InfixLoop | compiler.cpp:397-401 | the infix loop ends at a token whose precedence is below the requested level |
| Compiler.Infix | compiler.cpp:398-400 | one round of the loop strictly consumes input, since it advances over the operator token |
| Compiler.ExpressionStatement | compiler.cpp:102-106 | an expression statement ends with POP |
| Compiler.PrintStatement | compiler.cpp:108-112 | a print statement ends with PRINT |
| Compiler.Statement | compiler.cpp:94-100 | a statement starting with `print` ends with PRINT, and any other ends with POP |
| Compiler.ParseVariable | compiler.cpp:80-88 | the variable's name is interned as a string object and its reference added to the pool; when the name is missing, the previous token's text is interned instead |
| Compiler.VarDeclaration | compiler.cpp:66-78 | a declaration ends with DEFINE_GLOBAL and the pool index of its name; when no `=` follows the name, the whole code it adds is NIL, DEFINE_GLOBAL and that index |
| Compiler.DefineAfterName | compiler.cpp:69-77 | after the name, the initialiser and the `;`, DEFINE_GLOBAL and the given index end the code; with no `=`, exactly NIL, DEFINE_GLOBAL and the index are added |
| Compiler.Initialiser | compiler.cpp:69-73 | without `=`, the initial value is NIL |
| Compiler.DefineVariable | compiler.cpp:90-92 | DEFINE_GLOBAL and the name's index are emitted |
| Compiler.Synchronize | compiler.cpp:29-52 | recovery stops at EOF, after a `;`, or before a token that begins a statement, and emits nothing; it ends in panic mode exactly when it made a new report |
| Compiler.PullTokenPanics | compiler.cpp:127-134 | the scanner loop never leaves panic mode, and a report it makes enters it |
| Compiler.SkipToBoundaryPanics | compiler.cpp:31-51 | the skipping loop never leaves panic mode, and a report made on the way enters it |
| Compiler.SkipToBoundary | compiler.cpp:31-51 | the skipping loop stops at a statement boundary and neither emits nor allocates |
| Compiler.Declaration | compiler.cpp:54-64 | a declaration strictly consumes input unless the current token is EOF, so the declaration loop terminates |
| Compiler.Declarations | compiler.cpp:20-23 | the declaration loop ends with both tokens EOF, and on empty input it emits nothing and reports nothing |
| Compiler.ParseProgram | compiler.cpp:16-23 | the parse of the whole program leaves a valid parser whose arena extends the one given; the empty program adds no bytes, constants, objects or diagnostics |
| Compiler.Compile | compiler.cpp:16-27 | compilation succeeds exactly when no diagnostic was reported; the chunk's line table covers its bytes, every object constant names an arena slot, the arena only grows, the code always ends with RETURN, and the empty program is the single RETURN |
| Vm.Push | vm.cpp:127 | a push appends the value and changes nothing else |
| Vm.Pop | vm.cpp:129-133 | a pop returns the top and removes exactly it |
| Vm.PushPop | vm.cpp:127-133 | popping after a push returns the pushed value and the machine as it was |
| Vm.ResetStack | vm.cpp:136 | resetting empties the stack and changes nothing else |
| Vm.Init | vm.cpp:135 | `init` empties the stack and keeps the chunk, the offset and the arena |
| Vm.IsFalsey | vm.cpp:148-158 | a value is falsey unless it is `true` or a number; every object, which is never null, counts as falsey |
| Vm.ValuesEqual | vm.cpp:160-189 | two values are equal exactly when they denote the same thing: equal numbers, equal booleans, both nil, or strings with the same characters |
| Vm.ValuesEqualIsEquivalence | vm.cpp:160-189 | equality is reflexive, symmetric and transitive |
| Vm.ApplyArith | vm.h:40-48 | `>` and `<` produce booleans, and the four arithmetic operators produce numbers |
| Vm.ReportedLine | vm.cpp:140-141 | the line printed for a runtime error is entry `ip - 1` of the raw line table when that entry exists |
| Vm.RuntimeError | vm.cpp:137-144 | a runtime error carries its message and that line, and empties the stack |
| Vm.BinaryOp | vm.h:40-48 | an arithmetic instruction fails with "Operand must be a number." and an empty stack exactly when one of the two top values is not a number; otherwise it replaces them by the result of the operator applied to them in order |
| Vm.Equal | vm.cpp:74-79 | EQUAL replaces the two top values by whether they are equal |
| Vm.Not | vm.cpp:98-100 | NOT replaces the top by whether it is falsey |
| Vm.Negate | vm.cpp:101-109 | NEGATE negates a number in place, and for any other value is the runtime error "Operand must be a number." |
| Vm.Execute | vm.cpp:58-115 | an instruction keeps the chunk and the arena, a continuing instruction keeps the machine well formed and never moves the offset back, and a runtime error leaves an empty stack |
| Vm.Step | vm.cpp:56-120 | a step keeps the chunk and the arena; a continuing step keeps the machine well formed and moves the offset forward; a failing step leaves an empty stack |
| Vm.Run | vm.cpp:38-122 | the loop never answers a compile error; a runtime error leaves an empty stack; it stops at a point the source leaves undefined only on a machine that cannot step there |
| Vm.ReturnOnEmptyStack | vm.cpp:110-111 | RETURN on an empty stack pops an empty deque, which is undefined |
| Vm.Interpret | vm.cpp:24-36 | the compile-error result is answered exactly when compilation fails, and then the stack and the chunk are untouched; the arena only grows |
| Semantics.StepIs | vm.cpp:58 | when the byte at the offset is an opcode's byte and the instruction can run, a step executes that opcode past its byte |
| Semantics.ExecNext | vm.cpp:39-121 | running n instructions is one step followed by n-1 more |
| Semantics.ExecOne | vm.cpp:39-121 | a continuing step is one instruction |
| Semantics.ExecTwo | vm.cpp:39-121 | two continuing steps are two instructions |
| Semantics.StepEqualNumbers | vm.cpp:74-79 | EQUAL on two numbers pushes whether they are equal |
| Semantics.StepNot | vm.cpp:98-100 | NOT replaces the top by whether it is falsey |
| Semantics.StepArith | vm.cpp:80-97 | each arithmetic opcode on two numbers pushes the operator applied to them |
| Semantics.StepNegate | vm.cpp:101-103 | NEGATE on a number replaces it by its negation |
| Semantics.StepLiteral | vm.cpp:65-73 | NIL, TRUE and FALSE push their value |
| Semantics.CodeAtBytes | vm.cpp:124 | the bytes from the offset on are the given bytes, one by one |
| Semantics.ArithMeaning | compiler.cpp:260-283 | the opcode `binary` emits for `>`, `<`, `+`, `-`, `*` and `/` computes what the operator denotes |
| Semantics.OperatorSemantics | compiler.cpp:248-287 | the code `binary` emits, run on two numbers on top of the stack, replaces them by the value the operator denotes, including `!=`, `>=` and `<=`, which are compiled as a comparison and a negation |
| Semantics.NegatedOperatorSemantics | compiler.cpp:254-271 | `!=`, `>=` and `<=` compute the negation of `==`, `<` and `>` |
| Semantics.DirectOperatorSemantics | compiler.cpp:257-283 | the single-opcode operators compute what they denote |
| Semantics.Negated | vm.cpp:98-100 | NOT after a boolean pushes its negation |
| Semantics.LiteralAlwaysTrue | compiler.cpp:289-300 | the code of every literal keyword leaves `true` on top of the stack, because the cases fall through; `false` and `nil` therefore evaluate to true |
| Semantics.PushesTrueFrom | vm.cpp:65-73 | a run of literal pushes ending with TRUE pushes one value per instruction, the last of them true |
| Semantics.NotSemantics | compiler.cpp:230-239 | the code `unary` emits for `!`, run with any value on top of the stack, replaces it by whether it is falsey |
| Semantics.NegateSemantics | compiler.cpp:230-242 | the code `unary` emits for `-`, run with a number on top of the stack, replaces it by its negation |
| Semantics.NegateNonNumber | vm.cpp:101-107 | negating anything but a number fails with "Operand must be a number.", reports entry `ip` of the raw line table, and empties the stack |
| Semantics.ConstantSemantics | vm.cpp:60-64 | CONSTANT pushes the pool entry its operand names and moves past the operand |
| Semantics.ReturnSemantics | vm.cpp:110-115 | RETURN pops the top and ends the run with success |
| Semantics.PopLeavesStack | vm.cpp:58-115 | POP, which ends every expression statement, has no case in the dispatch and leaves the stack as it is |
| Semantics.DefineGlobalOperandRuns | vm.cpp:58-115 | DEFINE_GLOBAL has no case either, so its operand byte runs as an instruction of its own: an operand equal to NIL's byte pushes nil |

## Behaviour as written

The model follows the code where it departs from the language the code implements.
Each point below is stated by the member named.

- `Scanner.CheckKeyword` compares the rest of a keyword with the source's bytes
  at absolute offset 1 or 2, not relative to the token's start. A word that starts the
  source is typed by the keyword table (`Scanner.KeywordsAtSourceStart`). A later word
  is typed by its first letter, its length and the source's first characters. So
  `nil` in `print nil` is an identifier (`Scanner.NilAfterPrintIsIdentifier`). The
  second `var` in `var a; var b;` is a keyword (`Scanner.SecondVarIsKeyword`), and so
  is `vxx` in `var a; vxx` (`Scanner.NonKeywordTypedVar`). Offsets count bytes, so a
  character of several bytes near the start shifts that text: in `"éue"; true;` the
  word `true` is an identifier (`Scanner.MultiByteShiftsKeyword`).
- The cases of `literal` have no `break`, so `false` and `nil` both evaluate to true
  (`Semantics.LiteralAlwaysTrue`).
- `==` has comparison precedence while `!=` has equality precedence
  (`Compiler.EqualityOperatorsDiffer`).
- `getLine` reports, for an offset that starts a new run, the previous run's line
  (`Chunks.GetLineOffByOne`, `Chunks.GetLineAtRunBoundary`).
- `runtimeError` indexes the raw run-length table with the instruction offset instead
  of decoding it (`Vm.ReportedLine`).
- `isFalsey` answers true for every object (`Vm.IsFalsey`).
- POP, PRINT and DEFINE_GLOBAL have no case in the dispatch loop, so they do nothing.
  An expression statement leaves its value on the stack (`Semantics.PopLeavesStack`).
  The name operand of DEFINE_GLOBAL is run as an opcode
  (`Semantics.DefineGlobalOperandRuns`).
- ADD accepts numbers only. `concat` is declared but never called.
- The empty program compiles to a single RETURN (`Compiler.Compile`). Running it pops
  an empty stack (`Vm.ReturnOnEmptyStack`).
- `synchronize` clears panic mode and then advances. An error token met there is
  reported and sets panic mode again (`Compiler.Synchronize`).
- When a `var` is not followed by a name, `parseVariable` interns the previous token,
  the `var` keyword, as the name (`Compiler.ParseVariable`).
- `Chunk::init` clears only the bytes (`Chunks.InitBreaksCoverage`).
- `interpret` does not reset the stack before running. A failed compilation still
  leaves its string objects in the arena (`Vm.Interpret`).

## Left out

- Printing: RETURN's `printValue` and the compiler's and VM's writes to standard
  error are not modelled. Diagnostics are collected as values, and the runtime error
  line is a field of the step result. value.cpp is not part of this model.
- The `DEBUG_TRACE_EXECUTION` and `DEBUG_PRINT_CODE` blocks, debug.cpp, main.cpp and
  cpplox.cpp (the REPL and file runner) are outside the core.
- The `globals` map of the VM is never read or written by the dispatch loop and is
  not modelled. `concat` is declared in vm.h but has no definition and is never
  called.
- Vm.ApplyArith: numbers are reals, not IEEE doubles. Division by zero is given the
  value 0 instead of an infinity or NaN, and there is no rounding. Semantics.Meaning
  uses the same convention.
- Numbers.Stod: `std::stod` is modelled as exact decimal conversion on the lexemes the
  scanner produces. Rounding to the nearest double is not modelled. Nor is the
  `std::out_of_range` that `std::stod` throws for a literal beyond the range of a
  double: `number` does not catch it, so the C++ program terminates, while the model
  returns the exact value.
- Scanner.CheckKeyword: the source is modelled as its bytes, one `char` per byte, as
  the `std::string` the interpreter reads holds them. No decoding to Unicode is
  modelled: a source written with non-ASCII characters must be given to the model in
  its byte spelling (`"éue"; true;` as `"\U{C3}\U{A9}ue"; true;`), and then each
  byte outside a string is its own "Unexpected character." token, as in `é;`.
- Opcode numbering: the byte of each opcode is the order given above, because the
  header that numbers the full set is not part of this model.
- Integer widths: the 64-bit `size_t` line numbers and constant indices are
  unbounded naturals. The 255-constant limit of `makeConstant` is modelled. Two
  narrowings are not: `makeConstant` stores `addConstant`'s `size_t` in an `int`, and
  `runtimeError` stores a `size_t` table entry in an `int`. Both matter only past
  2^31 constants or lines.
- Vm.Run: the C++ loop runs on past the last byte. The model stops there with
  `Undefined`, as it does for every path that pops an empty deque or calls `.at()`
  out of range. What the C++ program does there is undefined or an uncaught
  exception. The compiler has one more uncaught exception, the `std::out_of_range` of
  `std::stod` (see Numbers.Stod above).
- Vm.ReportedLine: when the failing instruction's offset is at or past the end of the
  line table, `runtimeError` reads `lines[instruction]` out of range, which is
  undefined. The model gives a runtime error with no line instead (for `-"a";` the
  table is [5, 1] and NEGATE fails at offset 2).
- Vm.Step: requires `CanStep` and does not describe the undefined paths it excludes.
- Compiler.PullToken: the scanner is pulled directly from the parser. The
  scanner.h in this repository declares an unrelated class, and the real token header
  is not part of this model.
- The `Object` base class's subclass dispatch is reduced to the one subclass that
  exists, `StringObject`. The address comparison `valuesEqual` falls back to for
  other object types is unreachable and not modelled.

=== FILE: chunk.dfy ===
/** The bytecode chunk (chunk.h, chunk.cpp): instruction bytes, a run-length encoded
    line table and a constant pool.

    The line table is one flat sequence of alternating entries: a run length followed
    by the source line that every byte of the run came from.
 */
module Chunks {
  import opened Wrappers
  import opened Values

  type byte = b: int | 0 <= b < 256

  /** The opcodes the compiler emits and the VM dispatches on. The enum in chunk.h
      lists only seven of them and lives in another namespace; this is the union of
      the opcodes used by compiler.cpp and vm.cpp. */
  datatype OpCode =
    | OpConstant | OpNil | OpTrue | OpFalse | OpPop | OpDefineGlobal
    | OpEqual | OpGreater | OpLess
    | OpAdd | OpSubtract | OpMultiply | OpDivide
    | OpNot | OpNegate | OpPrint | OpReturn

  /** The byte of each opcode. The header that numbers the full opcode set is not part
      of this model; the numbering follows the order of the instruction table. */
  function Encode(op: OpCode): byte {
    match op
    case OpConstant => 0
    case OpNil => 1
    case OpTrue => 2
    case OpFalse => 3
    case OpPop => 4
    case OpDefineGlobal => 5
    case OpEqual => 6
    case OpGreater => 7
    case OpLess => 8
    case OpAdd => 9
    case OpSubtract => 10
    case OpMultiply => 11
    case OpDivide => 12
    case OpNot => 13
    case OpNegate => 14
    case OpPrint => 15
    case OpReturn => 16
  }

  /** The opcode a byte stands for, if any. */
  function Decode(b: byte): (r: Option<OpCode>)
    ensures r.Some? <==> b < 17
  {
    if b == 0 then Some(OpConstant)
    else if b == 1 then Some(OpNil)
    else if b == 2 then Some(OpTrue)
    else if b == 3 then Some(OpFalse)
    else if b == 4 then Some(OpPop)
    else if b == 5 then Some(OpDefineGlobal)
    else if b == 6 then Some(OpEqual)
    else if b == 7 then Some(OpGreater)
    else if b == 8 then Some(OpLess)
    else if b == 9 then Some(OpAdd)
    else if b == 10 then Some(OpSubtract)
    else if b == 11 then Some(OpMultiply)
    else if b == 12 then Some(OpDivide)
    else if b == 13 then Some(OpNot)
    else if b == 14 then Some(OpNegate)
    else if b == 15 then Some(OpPrint)
    else if b == 16 then Some(OpReturn)
    else None
  }

  /** Decoding inverts encoding, in both directions; hence distinct opcodes have
      distinct bytes. */
  lemma DecodeEncode(op: OpCode, b: byte)
    ensures Decode(Encode(op)) == Some(op)
    ensures Decode(b) == Some(op) ==> Encode(op) == b
  {
  }

  lemma EncodeInjective(op1: OpCode, op2: OpCode)
    requires Encode(op1) == Encode(op2)
    ensures op1 == op2
  {
    DecodeEncode(op1, 0);
    DecodeEncode(op2, 0);
  }

  /** The bytes of a sequence of opcodes. */
  function EncodeAll(ops: seq<OpCode>): (r: seq<byte>)
    ensures |r| == |ops| && forall i :: 0 <= i < |ops| ==> r[i] == Encode(ops[i])
  {
    if ops == [] then [] else [Encode(ops[0])] + EncodeAll(ops[1..])
  }

  lemma EncodeAllSnoc(ops: seq<OpCode>)
    requires ops != []
    ensures EncodeAll(ops) == EncodeAll(ops[..|ops| - 1]) + [Encode(ops[|ops| - 1])]
  {
  }

  datatype Chunk = Chunk(codes: seq<byte>, lines: seq<nat>, constants: seq<Value>)

  /** A freshly constructed chunk. */
  const Empty: Chunk := Chunk([], [], [])

  /** The sum of the run lengths of a flat (length, line) table. */
  function RunTotal(lines: seq<nat>): nat
    requires |lines| % 2 == 0
    decreases |lines|
  {
    if lines == [] then 0 else RunTotal(lines[..|lines| - 2]) + lines[|lines| - 2]
  }

  /** Every run has length at least one and adjacent runs carry different lines. */
  predicate WellFormedRuns(lines: seq<nat>)
    decreases |lines|
  {
    && |lines| % 2 == 0
    && (|lines| == 0 ||
        var init := lines[..|lines| - 2];
        && WellFormedRuns(init)
        && lines[|lines| - 2] >= 1
        && (init == [] || init[|init| - 1] != lines[|lines| - 1]))
  }

  /** The invariant `write` keeps: the runs are well formed and cover every byte. */
  predicate Valid(c: Chunk) {
    WellFormedRuns(c.lines) && RunTotal(c.lines) == |c.codes|
  }

  function Repeat(x: nat, n: nat): (r: seq<nat>)
    ensures |r| == n
    ensures forall i :: 0 <= i < n ==> r[i] == x
  {
    if n == 0 then [] else Repeat(x, n - 1) + [x]
  }

  /** The line table decoded to one line per byte. */
  function Expand(lines: seq<nat>): (r: seq<nat>)
    requires |lines| % 2 == 0
    ensures |r| == RunTotal(lines)
    decreases |lines|
  {
    if lines == [] then []
    else Expand(lines[..|lines| - 2]) + Repeat(lines[|lines| - 1], lines[|lines| - 2])
  }

  lemma EmptyValid()
    ensures Valid(Empty) && Empty.codes == [] && Empty.lines == [] && Empty.constants == []
  {
  }

  /** Appends one byte. A byte on the same line as the last run lengthens that run;
      a byte on another line starts a new run of length one. */
  function Write(c: Chunk, b: byte, line: nat): (r: Chunk)
    requires |c.lines| % 2 == 0
    ensures r.codes == c.codes + [b] && r.constants == c.constants
    ensures |r.lines| % 2 == 0
    ensures Expand(r.lines) == Expand(c.lines) + [line]
    ensures |c.lines| > 0 && c.lines[|c.lines| - 1] == line ==> |r.lines| == |c.lines|
    ensures !(|c.lines| > 0 && c.lines[|c.lines| - 1] == line) ==> |r.lines| == |c.lines| + 2
    ensures Valid(c) ==> Valid(r)
  {
    var n := |c.lines|;
    if n > 0 && c.lines[n - 1] == line then
      ExtendRun(c.lines, line);
      Chunk(c.codes + [b], c.lines[n - 2 := c.lines[n - 2] + 1], c.constants)
    else
      NewRun(c.lines, line);
      Chunk(c.codes + [b], c.lines + [1, line], c.constants)
  }

  /** Lengthening the last run adds one byte on its line. */
  lemma ExtendRun(lines: seq<nat>, line: nat)
    requires |lines| % 2 == 0 && |lines| > 0 && lines[|lines| - 1] == line
    ensures var lines' := lines[|lines| - 2 := lines[|lines| - 2] + 1];
            && |lines'| % 2 == 0
            && RunTotal(lines') == RunTotal(lines) + 1
            && Expand(lines') == Expand(lines) + [line]
            && (WellFormedRuns(lines) ==> WellFormedRuns(lines'))
  {
    var n := |lines|;
    var lines' := lines[n - 2 := lines[n - 2] + 1];
    assert lines'[..n - 2] == lines[..n - 2];
  }

  /** A new run of one adds one byte on its line. */
  lemma NewRun(lines: seq<nat>, line: nat)
    requires |lines| % 2 == 0
    ensures var lines' := lines + [1, line];
            && |lines'| % 2 == 0
            && RunTotal(lines') == RunTotal(lines) + 1
            && Expand(lines') == Expand(lines) + [line]
            && (WellFormedRuns(lines) && !(|lines| > 0 && lines[|lines| - 1] == line) ==> WellFormedRuns(lines'))
  {
    var lines' := lines + [1, line];
    assert lines'[..|lines|] == lines;
  }

  /** Clears the bytes only; the line table and the pool are left as they were. */
  function Init(c: Chunk): (r: Chunk)
    ensures r.codes == [] && r.lines == c.lines && r.constants == c.constants
  {
    c.(codes := [])
  }

  /** `init` leaves stale runs behind, so on a non-empty chunk it breaks the invariant
      that the runs cover exactly the bytes. */
  lemma InitBreaksCoverage(c: Chunk)
    requires Valid(c) && |c.codes| > 0
    ensures !Valid(Init(c))
  {
  }

  /** Appends a value to the pool and returns its index. The index is a 64-bit count
      in the source, not a byte: callers must check that it fits an operand. */
  function AddConstant(c: Chunk, v: Value): (r: (Chunk, nat))
    ensures r.1 == |c.constants| && r.0.constants == c.constants + [v]
    ensures r.0.constants[r.1] == v
    ensures r.0.codes == c.codes && r.0.lines == c.lines
  {
    (c.(constants := c.constants + [v]), |c.constants|)
  }

  /** The line `getLine(idx)` reports: that of the first run whose cumulative length
      reaches `idx`, or 0 when no run does. */
  function Lookup(lines: seq<nat>, idx: nat): nat
    requires |lines| % 2 == 0
    decreases |lines|
  {
    if lines == [] then 0
    else if lines[0] >= idx then lines[1]
    else Lookup(lines[2..], idx - lines[0])
  }

  /** The C++ loop of `getLine`, accumulating run lengths until they reach `idx`. */
  method GetLine(c: Chunk, idx: nat) returns (line: nat)
    requires |c.lines| % 2 == 0
    ensures line == Lookup(c.lines, idx)
  {
    var length := 0;
    var i := 0;
    while i < |c.lines|
      invariant 0 <= i <= |c.lines| && i % 2 == 0
      invariant length < idx || (i == 0 && length == 0)
      invariant Lookup(c.lines, idx) == Lookup(c.lines[i..], idx - length)
      decreases |c.lines| - i
    {
      length := length + c.lines[i];
      if length < idx {
        assert c.lines[i..][2..] == c.lines[i + 2..];
        i := i + 2;
        continue;
      }
      return c.lines[i + 1];
    }
    return 0;
  }

  /** The decoded table read from the front: the first run, then the rest. */
  lemma {:induction false} ExpandFront(lines: seq<nat>)
    requires |lines| >= 2 && |lines| % 2 == 0
    ensures Expand(lines) == Repeat(lines[1], lines[0]) + Expand(lines[2..])
    decreases |lines|
  {
    var n := |lines|;
    var init := lines[..n - 2];
    if n == 2 {
      assert lines[2..] == [];
    } else {
      ExpandFront(init);
      assert init[2..] == lines[2..][..n - 4];
      assert init[0] == lines[0] && init[1] == lines[1];
      calc {
        Expand(lines);
        Expand(init) + Repeat(lines[n - 1], lines[n - 2]);
        Repeat(lines[1], lines[0]) + Expand(init[2..]) + Repeat(lines[n - 1], lines[n - 2]);
        Repeat(lines[1], lines[0]) + Expand(lines[2..]);
      }
    }
  }

  /** What `getLine(idx)` computes, stated against the decoded table: for an index
      inside the chunk it is the line of byte `idx - 1`, and past the end it is 0. So an
      offset that starts a new run is reported with the previous run's line. */
  lemma {:induction false} LookupIsPreviousByteLine(lines: seq<nat>, idx: nat)
    requires |lines| % 2 == 0
    ensures 1 <= idx <= RunTotal(lines) ==> Lookup(lines, idx) == Expand(lines)[idx - 1]
    ensures idx > RunTotal(lines) ==> Lookup(lines, idx) == 0
    decreases |lines|
  {
    if lines != [] {
      ExpandFront(lines);
      if lines[0] < idx {
        LookupIsPreviousByteLine(lines[2..], idx - lines[0]);
      }
    }
  }

  /** `getLine` on a chunk that keeps the invariant: offset `i` (1-based up to the
      byte count) is reported with the line of byte `i - 1`. */
  lemma GetLineOffByOne(c: Chunk, i: nat)
    requires Valid(c) && 1 <= i <= |c.codes|
    ensures Lookup(c.lines, i) == Expand(c.lines)[i - 1]
  {
    LookupIsPreviousByteLine(c.lines, i);
  }

  /** A two-byte chunk written on lines 1 and 2: byte 1 is on line 2, yet `getLine(1)`
      reports line 1. */
  lemma GetLineAtRunBoundary()
    ensures var c := Write(Write(Empty, 0, 1), 0, 2);
            Expand(c.lines)[1] == 2 && Lookup(c.lines, 1) == 1
  {
    var c := Write(Write(Empty, 0, 1), 0, 2);
    assert c.lines == [1, 1, 1, 2];
  }
}

=== FILE: compiler.dfy ===
/** The single-pass compiler (compiler.h, compiler.cpp): a Pratt parser that pulls
    tokens from the scanner and emits bytecode into a chunk as it recognises each
    construct. String constants are allocated in the VM's object arena.

    The parser's state is one immutable value; every member of the C++ `Parser` that
    mutates the state is a function from the old state to the new one. Diagnostics
    that the source writes to standard error are collected in a list instead.
 */
module Compiler {
  import opened Wrappers
  import S = Scanner
  import P = Precedences
  import C = Chunks
  import V = Values
  import N = Numbers

  // ---------------------------------------------------------------------------
  // Parse rules

  /** The parse functions a rule can point at (the member-function pointers of the
      source). */
  datatype ParseFn = GroupingFn | UnaryFn | BinaryFn | NumberFn | StringFn | LiteralFn

  datatype ParseRule = ParseRule(prefix: Option<ParseFn>, infix: Option<ParseFn>, precedence: P.Precedence)

  /** The rule table of `getRule`. Note that `==` is given comparison precedence and
      `!=` equality precedence, so `==` binds tighter than `!=`. */
  function GetRule(k: S.TokenKind): (r: ParseRule)
    ensures r.prefix == Some(GroupingFn) <==> k == S.LeftParen
    ensures r.prefix == Some(UnaryFn) <==> k == S.Minus || k == S.Bang
    ensures r.prefix == Some(NumberFn) <==> k == S.Number
    ensures r.prefix == Some(StringFn) <==> k == S.String
    ensures r.prefix == Some(LiteralFn) <==> k == S.False || k == S.Nil || k == S.True
    ensures r.prefix != Some(BinaryFn)
    ensures r.prefix.Some? <==> k in {S.LeftParen, S.Minus, S.Bang, S.Number, S.String, S.False, S.Nil, S.True}
    ensures r.infix.Some? <==> r.precedence != P.None
    ensures r.infix.Some? ==> r.infix == Some(BinaryFn) && P.Le(P.Equality, r.precedence)
    ensures P.Le(r.precedence, P.Factor)
  {
    match k
    case LeftParen => ParseRule(Some(GroupingFn), None, P.None)
    case Minus => ParseRule(Some(UnaryFn), Some(BinaryFn), P.Term)
    case Plus => ParseRule(None, Some(BinaryFn), P.Term)
    case Slash => ParseRule(None, Some(BinaryFn), P.Factor)
    case Star => ParseRule(None, Some(BinaryFn), P.Factor)
    case Bang => ParseRule(Some(UnaryFn), None, P.None)
    case BangEqual => ParseRule(None, Some(BinaryFn), P.Equality)
    case EqualEqual => ParseRule(None, Some(BinaryFn), P.Comparison)
    case Greater => ParseRule(None, Some(BinaryFn), P.Comparison)
    case GreaterEqual => ParseRule(None, Some(BinaryFn), P.Comparison)
    case Less => ParseRule(None, Some(BinaryFn), P.Comparison)
    case LessEqual => ParseRule(None, Some(BinaryFn), P.Comparison)
    case String => ParseRule(Some(StringFn), None, P.None)
    case Number => ParseRule(Some(NumberFn), None, P.None)
    case False => ParseRule(Some(LiteralFn), None, P.None)
    case Nil => ParseRule(Some(LiteralFn), None, P.None)
    case True => ParseRule(Some(LiteralFn), None, P.None)
    case _ => ParseRule(None, None, P.None)
  }

  /** The kinds that can start an expression. */
  predicate StartsExpression(k: S.TokenKind) {
    GetRule(k).prefix.Some?
  }

  /** `==` binds tighter than `!=`, and both bind tighter than nothing else among the
      operators but looser than `+`. */
  lemma EqualityOperatorsDiffer()
    ensures GetRule(S.EqualEqual).precedence == P.Comparison
    ensures GetRule(S.BangEqual).precedence == P.Equality
    ensures !P.Le(GetRule(S.EqualEqual).precedence, GetRule(S.BangEqual).precedence)
  {
  }

  // ---------------------------------------------------------------------------
  // Parser state

  /** Where a diagnostic points: the end of input, nowhere (for scanner errors, whose
      message replaces the lexeme), or a lexeme. */
  datatype Location = AtEnd | Unlocated | AtLexeme(lexeme: string)

  /** One report `[line N] Error<location>: <message>`. */
  datatype Diagnostic = Diagnostic(line: nat, location: Location, message: string)

  datatype Parser = Parser(
    scanner: S.Cursor,
    current: S.Token,
    previous: S.Token,
    hadError: bool,
    panicMode: bool,
    chunk: C.Chunk,
    objects: V.Arena,
    diagnostics: seq<Diagnostic>)

  /** The bookkeeping a parser keeps whatever its tokens: the chunk's line table covers
      its bytes, every constant that is an object names a slot of the arena, an error
      has been reported exactly when `hadError` is set, and panic mode only follows an
      error. */
  predicate Consistent(p: Parser) {
    && C.Valid(p.chunk)
    && V.RefsIn(p.chunk.constants, |p.objects|)
    && (p.hadError <==> p.diagnostics != [])
    && (p.panicMode ==> p.hadError)
  }

  /** The state between two calls of the parse functions: in addition, the current
      token is never an error token, and once it is EOF the scanner is exhausted and
      will keep returning that same token. */
  predicate Valid(p: Parser) {
    && Consistent(p)
    && S.Valid(p.scanner)
    && p.current.kind != S.Error
    && (p.current.kind == S.Eof ==> S.AtEnd(p.scanner) && p.current == S.Token(S.Eof, p.scanner.line, []))
    && S.WellFormedToken(p.current)
    && S.WellFormedToken(p.previous)
  }

  /** Twice the unread input, plus one while the current token is not EOF: every
      `advance` over a token that is not EOF decreases it. */
  function Measure(p: Parser): nat
    requires S.Valid(p.scanner)
  {
    2 * (|p.scanner.src| - p.scanner.current) + (if p.current.kind == S.Eof then 0 else 1)
  }

  /** `r` is a later state of the parse that produced `p`: the same input, no token
      given back, and bytes, constants, objects and diagnostics only appended. */
  predicate Grows(p: Parser, r: Parser) {
    && S.Valid(p.scanner)
    && S.Valid(r.scanner)
    && r.scanner.src == p.scanner.src
    && Measure(r) <= Measure(p)
    && p.chunk.codes <= r.chunk.codes
    && p.chunk.constants <= r.chunk.constants
    && p.objects <= r.objects
    && p.diagnostics <= r.diagnostics
  }

  lemma GrowsTrans(a: Parser, b: Parser, c: Parser)
    requires Grows(a, b) && Grows(b, c)
    ensures Grows(a, c)
  {
  }

  // ---------------------------------------------------------------------------
  // Errors and tokens

  function LocationOf(t: S.Token): Location {
    if t.kind == S.Eof then AtEnd
    else if t.kind == S.Error then Unlocated
    else AtLexeme(t.lexeme)
  }

  /** Reports `message` at token `t`, unless a report is already pending: in panic
      mode further errors are suppressed until the parser resynchronises. */
  function ErrorAt(p: Parser, t: S.Token, message: string): (r: Parser)
    ensures r.panicMode
    ensures r.diagnostics == p.diagnostics + (if p.panicMode then [] else [Diagnostic(t.line, LocationOf(t), message)])
    ensures r.(panicMode := p.panicMode, hadError := p.hadError, diagnostics := p.diagnostics) == p
    ensures Consistent(p) ==> Consistent(r)
  {
    if p.panicMode then p
    else p.(panicMode := true, hadError := true, diagnostics := p.diagnostics + [Diagnostic(t.line, LocationOf(t), message)])
  }

  /** The loop of `advance`: scans until a token that is not an error, reporting each
      error token, with its message, at itself. */
  function PullToken(p: Parser): (r: Parser)
    requires Consistent(p) && S.Valid(p.scanner) && S.WellFormedToken(p.previous)
    ensures Valid(r)
    ensures r.scanner.src == p.scanner.src && p.scanner.current <= r.scanner.current
    ensures r.current.kind != S.Eof ==> p.scanner.current < r.scanner.current
    ensures r.previous == p.previous && r.chunk == p.chunk && r.objects == p.objects
    ensures p.diagnostics <= r.diagnostics
    ensures r.panicMode ==> p.panicMode || |r.diagnostics| > |p.diagnostics|
    ensures S.AtEnd(p.scanner) ==> r == p.(scanner := p.scanner.(start := p.scanner.current),
                                           current := S.Token(S.Eof, p.scanner.line, []))
    decreases |p.scanner.src| - p.scanner.current
  {
    var next := S.ScanToken(p.scanner);
    var q := p.(scanner := next.1, current := next.0);
    if next.0.kind != S.Error then q
    else PullToken(ErrorAt(q, q.current, q.current.lexeme))
  }

  /** Moves to the next token that is not an error token. */
  function Advance(p: Parser): (r: Parser)
    requires Valid(p)
    ensures Valid(r) && Grows(p, r)
    ensures r.previous == p.current && r.chunk == p.chunk && r.objects == p.objects
    ensures p.current.kind != S.Eof ==> Measure(r) < Measure(p)
    ensures p.current.kind == S.Eof ==> r == p.(previous := p.current, scanner := r.scanner)
    ensures r.panicMode ==> p.panicMode || |r.diagnostics| > |p.diagnostics|
  {
    PullToken(p.(previous := p.current))
  }

  /** Consumes the current token if it has kind `k`. */
  function Match(p: Parser, k: S.TokenKind): (r: (bool, Parser))
    requires Valid(p)
    ensures r.0 <==> p.current.kind == k
    ensures r.1 == if r.0 then Advance(p) else p
  {
    if p.current.kind != k then (false, p) else (true, Advance(p))
  }

  /** Consumes a token of kind `k`, or reports `message` at the current token. */
  function Consume(p: Parser, k: S.TokenKind, message: string): (r: Parser)
    requires Valid(p)
    ensures Valid(r) && Grows(p, r)
    ensures p.current.kind == k ==> r == Advance(p)
    ensures p.current.kind != k ==> r == ErrorAt(p, p.current, message) && r.panicMode
    ensures r.chunk == p.chunk && r.objects == p.objects
  {
    if p.current.kind == k then Advance(p) else ErrorAt(p, p.current, message)
  }

  /** Reports `message` at the token just consumed. */
  function Error(p: Parser, message: string): (r: Parser)
    requires Valid(p)
    ensures Valid(r) && Grows(p, r) && r.hadError && r.panicMode
    ensures r.chunk == p.chunk && r.objects == p.objects && r.current == p.current
    ensures r == ErrorAt(p, p.previous, message)
  {
    ErrorAt(p, p.previous, message)
  }

  // ---------------------------------------------------------------------------
  // Emission

  /** Appends a byte to the chunk, attributed to the line of the token just consumed. */
  function EmitByte(p: Parser, b: C.byte): (r: Parser)
    requires Valid(p)
    ensures Valid(r) && Grows(p, r)
    ensures r.chunk.codes == p.chunk.codes + [b] && r.chunk.constants == p.chunk.constants
    ensures C.Expand(r.chunk.lines) == C.Expand(p.chunk.lines) + [p.previous.line]
    ensures r == p.(chunk := r.chunk)
  {
    p.(chunk := C.Write(p.chunk, b, p.previous.line))
  }

  function Emit(p: Parser, op: C.OpCode): (r: Parser)
    requires Valid(p)
    ensures Valid(r) && Grows(p, r)
    ensures r.chunk.codes == p.chunk.codes + [C.Encode(op)] && r.chunk.constants == p.chunk.constants
    ensures r == p.(chunk := r.chunk)
  {
    EmitByte(p, C.Encode(op))
  }

  /** Adds a value to the pool and returns the operand byte that names it: the pool
      index, or 0 with an error once the index no longer fits a byte. The value is
      added to the pool either way. */
  function MakeConstant(p: Parser, v: V.Value): (r: (Parser, C.byte))
    requires Valid(p) && V.RefsIn([v], |p.objects|)
    ensures Valid(r.0) && Grows(p, r.0)
    ensures r.0.chunk.constants == p.chunk.constants + [v]
    ensures r.0.chunk.codes == p.chunk.codes && r.0.objects == p.objects && r.0.current == p.current
    ensures |p.chunk.constants| <= 255 ==> r.1 == |p.chunk.constants| && r.0.diagnostics == p.diagnostics
    ensures |p.chunk.constants| > 255 ==> r.1 == 0 && r.0.hadError && r.0.panicMode
    ensures |p.chunk.constants| > 255 ==>
              r.0 == Error(p.(chunk := r.0.chunk), "Too many constants in one chunk.")
  {
    var added := C.AddConstant(p.chunk, v);
    var q := p.(chunk := added.0);
    assert V.RefsIn(q.chunk.constants, |q.objects|) by {
      assert forall i :: 0 <= i < |p.chunk.constants| ==> q.chunk.constants[i] == p.chunk.constants[i];
      assert q.chunk.constants[|p.chunk.constants|] == [v][0];
    }
    if added.1 > 255 then (Error(q, "Too many constants in one chunk."), 0)
    else (q, added.1)
  }

  function EmitConstant(p: Parser, v: V.Value): (r: Parser)
    requires Valid(p) && V.RefsIn([v], |p.objects|)
    ensures Valid(r) && Grows(p, r)
    ensures r.chunk.constants == p.chunk.constants + [v] && r.objects == p.objects
    ensures |r.chunk.codes| == |p.chunk.codes| + 2
    ensures r.chunk.codes[|p.chunk.codes|] == C.Encode(C.OpConstant)
    ensures |p.chunk.constants| <= 255 ==> r.chunk.codes[|p.chunk.codes| + 1] == |p.chunk.constants|
    ensures |p.chunk.constants| > 255 ==> r.chunk.codes[|p.chunk.codes| + 1] == 0 && r.hadError
  {
    var made := MakeConstant(p, v);
    var q := Emit(made.0, C.OpConstant);
    var r := EmitByte(q, made.1);
    GrowsTrans(p, made.0, q);
    GrowsTrans(p, q, r);
    r
  }

  /** Allocates a string object in the arena and returns its reference. */
  function AddString(p: Parser, s: string): (r: (Parser, nat))
    requires Valid(p)
    ensures Valid(r.0) && Grows(p, r.0)
    ensures r.0.objects == p.objects + [V.StringObject(s)] && r.1 == |p.objects|
    ensures r.0 == p.(objects := r.0.objects)
    ensures r.0.chunk == p.chunk && r.0.diagnostics == p.diagnostics
  {
    var added := V.AddObject(p.objects, V.StringObject(s));
    assert added.0 == p.objects + [V.StringObject(s)];
    (p.(objects := added.0), added.1)
  }

  // ---------------------------------------------------------------------------
  // Expressions

  function Number(p: Parser): (r: Parser)
    requires Valid(p) && p.previous.kind == S.Number
    ensures Valid(r) && Grows(p, r)
    ensures r.chunk.constants == p.chunk.constants + [V.Number(N.Stod(p.previous.lexeme))]
    ensures |r.chunk.codes| == |p.chunk.codes| + 2 && r.chunk.codes[|p.chunk.codes|] == C.Encode(C.OpConstant)
    ensures |p.chunk.constants| <= 255 ==> r.chunk.codes[|p.chunk.codes| + 1] == |p.chunk.constants|
    ensures r.objects == p.objects
  {
    EmitConstant(p, V.Number(N.Stod(p.previous.lexeme)))
  }

  /** `previous.str.substr(1, length - 2)`: a string lexeme without its quotes. */
  function Unquote(lex: string): (s: string)
    requires |lex| >= 2
    ensures s == lex[1..|lex| - 1]
  {
    S.Substr(lex, 1, |lex| - 2)
  }

  /** A string literal: the lexeme without its quotes becomes a new string object, and
      the reference to it a constant. */
  function String(p: Parser): (r: Parser)
    requires Valid(p) && p.previous.kind == S.String
    ensures Valid(r) && Grows(p, r)
    ensures r.objects == p.objects + [V.StringObject(Unquote(p.previous.lexeme))]
    ensures r.chunk.constants == p.chunk.constants + [V.Obj(|p.objects|)]
    ensures |r.chunk.codes| == |p.chunk.codes| + 2 && r.chunk.codes[|p.chunk.codes|] == C.Encode(C.OpConstant)
  {
    var lex := p.previous.lexeme;
    assert |lex| >= 2 by {
      assert S.WellFormedToken(p.previous);
    }
    var text := Unquote(lex);
    var added := AddString(p, text);
    var r := EmitConstant(added.0, V.Obj(added.1));
    GrowsTrans(p, added.0, r);
    r
  }

  /** The opcodes `literal` emits for a literal keyword. The cases of the source's
      switch fall through, so `false` emits all three and `nil` two. */
  function LiteralCode(k: S.TokenKind): seq<C.OpCode> {
    match k
    case False => [C.OpFalse, C.OpNil, C.OpTrue]
    case Nil => [C.OpNil, C.OpTrue]
    case True => [C.OpTrue]
    case _ => []
  }

  function Literal(p: Parser): (r: Parser)
    requires Valid(p)
    ensures Valid(r) && Grows(p, r)
    ensures r.chunk.codes == p.chunk.codes + C.EncodeAll(LiteralCode(p.previous.kind))
  {
    EmitAll(p, LiteralCode(p.previous.kind))
  }

  /** The opcodes `binary` emits after its right operand. `!=`, `>=` and `<=` are
      synthesised from a comparison followed by a negation. */
  function OperatorCode(k: S.TokenKind): seq<C.OpCode> {
    match k
    case BangEqual => [C.OpEqual, C.OpNot]
    case EqualEqual => [C.OpEqual]
    case Greater => [C.OpGreater]
    case GreaterEqual => [C.OpLess, C.OpNot]
    case Less => [C.OpLess]
    case LessEqual => [C.OpGreater, C.OpNot]
    case Plus => [C.OpAdd]
    case Minus => [C.OpSubtract]
    case Star => [C.OpMultiply]
    case Slash => [C.OpDivide]
    case _ => []
  }

  /** The opcodes `unary` emits after its operand. */
  function UnaryCode(k: S.TokenKind): seq<C.OpCode> {
    if k == S.Bang then [C.OpNot]
    else if k == S.Minus then [C.OpNegate]
    else []
  }

  /** Emits a sequence of opcodes in order. */
  function EmitAll(p: Parser, ops: seq<C.OpCode>): (r: Parser)
    requires Valid(p)
    ensures Valid(r) && Grows(p, r)
    ensures r.chunk.codes == p.chunk.codes + C.EncodeAll(ops)
    ensures r.current == p.current
    decreases |ops|
  {
    if ops == [] then p
    else
      var q := EmitAll(p, ops[..|ops| - 1]);
      var r := Emit(q, ops[|ops| - 1]);
      GrowsTrans(p, q, r);
      C.EncodeAllSnoc(ops);
      r
  }

  /** What a parse function may assume about the token just consumed. */
  predicate CanApply(p: Parser, fn: ParseFn) {
    match fn
    case NumberFn => p.previous.kind == S.Number
    case StringFn => p.previous.kind == S.String
    case _ => true
  }

  /** Code that ends with `suffix`. */
  predicate EndsWith(codes: seq<C.byte>, suffix: seq<C.byte>) {
    |suffix| <= |codes| && codes[|codes| - |suffix|..] == suffix
  }

  /** Calls the parse function a rule points at. */
  function Apply(p: Parser, fn: ParseFn): (r: Parser)
    requires Valid(p) && CanApply(p, fn)
    ensures Valid(r) && Grows(p, r)
    decreases Measure(p), 4
  {
    match fn
    case GroupingFn => Grouping(p)
    case UnaryFn => Unary(p)
    case BinaryFn => Binary(p)
    case NumberFn => Number(p)
    case StringFn => String(p)
    case LiteralFn => Literal(p)
  }

  /** A parenthesised expression. */
  function Grouping(p: Parser): (r: Parser)
    requires Valid(p)
    ensures Valid(r) && Grows(p, r)
    decreases Measure(p), 3
  {
    var e := Expression(p);
    var r := Consume(e, S.RightParen, "Expect ')' after expression.");
    GrowsTrans(p, e, r);
    r
  }

  /** A prefix operator: its operand at unary precedence, then the operator. */
  function Unary(p: Parser): (r: Parser)
    requires Valid(p)
    ensures Valid(r) && Grows(p, r)
    ensures EndsWith(r.chunk.codes, C.EncodeAll(UnaryCode(p.previous.kind)))
    decreases Measure(p), 3
  {
    var operand := ParsePrecedence(p, P.Unary);
    var r := EmitAll(operand, UnaryCode(p.previous.kind));
    GrowsTrans(p, operand, r);
    r
  }

  /** An infix operator: its right operand one level tighter than the operator itself
      (so the operators are left-associative), then the operator's opcodes. */
  function Binary(p: Parser): (r: Parser)
    requires Valid(p)
    ensures Valid(r) && Grows(p, r)
    ensures EndsWith(r.chunk.codes, C.EncodeAll(OperatorCode(p.previous.kind)))
    ensures StartsExpression(p.current.kind) ==>
              !P.Le(OperandPrecedence(p.previous.kind), GetRule(r.current.kind).precedence)
    decreases Measure(p), 3
  {
    var operand := ParsePrecedence(p, OperandPrecedence(p.previous.kind));
    var r := EmitAll(operand, OperatorCode(p.previous.kind));
    assert r.current == operand.current;
    GrowsTrans(p, operand, r);
    r
  }

  /** The precedence `binary` parses an operator's right operand at: one level above
      the operator's own. */
  function OperandPrecedence(k: S.TokenKind): (prec: P.Precedence)
    ensures P.Ordinal(prec) == P.Ordinal(GetRule(k).precedence) + 1
    ensures prec != P.None
  {
    P.NextEnumBounds(GetRule(k).precedence);
    P.NextEnum(GetRule(k).precedence)
  }

  function Expression(p: Parser): (r: Parser)
    requires Valid(p)
    ensures Valid(r) && Grows(p, r)
    ensures p.current.kind != S.Eof ==> Measure(r) < Measure(p)
    ensures StartsExpression(p.current.kind) ==> GetRule(r.current.kind).precedence == P.None
    decreases Measure(p), 2
  {
    var r := ParsePrecedence(p, P.Assignment);
    P.OnlyNoneBelowAssignment(GetRule(r.current.kind).precedence);
    r
  }

  /** Parses an expression whose operators all bind at least as tightly as `prec`:
      a prefix expression, then infix operators while the next one binds tightly
      enough. */
  function ParsePrecedence(p: Parser, prec: P.Precedence): (r: Parser)
    requires Valid(p) && prec != P.None
    ensures Valid(r) && Grows(p, r)
    ensures p.current.kind != S.Eof ==> Measure(r) < Measure(p)
    ensures StartsExpression(p.current.kind) ==> !P.Le(prec, GetRule(r.current.kind).precedence)
    ensures !StartsExpression(p.current.kind) ==> r.hadError && r.chunk == p.chunk
    ensures !StartsExpression(p.current.kind) ==> r == Error(Advance(p), "Expect expression.")
    decreases Measure(p), 1
  {
    var a := Advance(p);
    var prefix := GetRule(a.previous.kind).prefix;
    if prefix.None? then
      var r := Error(a, "Expect expression.");
      GrowsTrans(p, a, r);
      r
    else
      assert a.previous == p.current && p.current.kind != S.Eof;
      assert Measure(a) < Measure(p);
      var b := Apply(a, prefix.value);
      assert Measure(b) <= Measure(a);
      var r := InfixLoop(b, prec);
      GrowsTrans(p, a, b);
      GrowsTrans(p, b, r);
      r
  }

  /** The loop of `parsePrecedence`: while the current token is an infix operator
      binding at least as tightly as `prec`, consume it and parse its right side. */
  function InfixLoop(p: Parser, prec: P.Precedence): (r: Parser)
    requires Valid(p) && prec != P.None
    ensures Valid(r) && Grows(p, r)
    ensures !P.Le(prec, GetRule(r.current.kind).precedence)
    decreases Measure(p), 6
  {
    if P.Le(prec, GetRule(p.current.kind).precedence) then
      var b := Infix(p);
      var r := InfixLoop(b, prec);
      GrowsTrans(p, b, r);
      r
    else p
  }

  /** One turn of that loop: consume the operator and call its infix rule. */
  function Infix(p: Parser): (r: Parser)
    requires Valid(p) && GetRule(p.current.kind).precedence != P.None
    ensures Valid(r) && Grows(p, r) && Measure(r) < Measure(p)
    decreases Measure(p), 5
  {
    assert p.current.kind != S.Eof by {
      assert GetRule(S.Eof).precedence == P.None;
    }
    var a := Advance(p);
    assert a.previous == p.current;
    var fn := GetRule(a.previous.kind).infix.value;
    assert fn == BinaryFn;
    var r := Apply(a, fn);
    GrowsTrans(p, a, r);
    r
  }

  // ---------------------------------------------------------------------------
  // Statements and declarations

  /** An expression evaluated for its effect: the value is popped. */
  function ExpressionStatement(p: Parser): (r: Parser)
    requires Valid(p)
    ensures Valid(r) && Grows(p, r)
    ensures p.current.kind != S.Eof ==> Measure(r) < Measure(p)
    ensures EndsWith(r.chunk.codes, [C.Encode(C.OpPop)])
  {
    var e := Expression(p);
    var c := Consume(e, S.Semicolon, "Expect ';' after value.");
    var r := Emit(c, C.OpPop);
    GrowsTrans(p, e, c);
    GrowsTrans(p, c, r);
    r
  }

  /** `print` has been consumed: the expression, then the print instruction. */
  function PrintStatement(p: Parser): (r: Parser)
    requires Valid(p)
    ensures Valid(r) && Grows(p, r)
    ensures EndsWith(r.chunk.codes, [C.Encode(C.OpPrint)])
  {
    var e := Expression(p);
    var c := Consume(e, S.Semicolon, "Expect ';' after value.");
    var r := Emit(c, C.OpPrint);
    GrowsTrans(p, e, c);
    GrowsTrans(p, c, r);
    r
  }

  function Statement(p: Parser): (r: Parser)
    requires Valid(p)
    ensures Valid(r) && Grows(p, r)
    ensures p.current.kind != S.Eof ==> Measure(r) < Measure(p)
    ensures p.current.kind == S.Print ==> EndsWith(r.chunk.codes, [C.Encode(C.OpPrint)])
    ensures p.current.kind != S.Print ==> EndsWith(r.chunk.codes, [C.Encode(C.OpPop)])
  {
    var m := Match(p, S.Print);
    if m.0 then
      var r := PrintStatement(m.1);
      GrowsTrans(p, m.1, r);
      r
    else ExpressionStatement(p)
  }

  /** The name of a variable becomes a string object, and the reference to it a
      constant; returns the operand byte naming that constant. When the name is
      missing, the token before it is interned instead. */
  function ParseVariable(p: Parser, message: string): (r: (Parser, C.byte))
    requires Valid(p)
    ensures Valid(r.0) && Grows(p, r.0)
    ensures p.current.kind == S.Identifier ==> r.0.objects == p.objects + [V.StringObject(p.current.lexeme)]
    ensures p.current.kind != S.Identifier ==> r.0.objects == p.objects + [V.StringObject(p.previous.lexeme)]
    ensures r.0.chunk.codes == p.chunk.codes
    ensures r.0.chunk.constants == p.chunk.constants + [V.Obj(|p.objects|)]
    ensures |p.chunk.constants| <= 255 ==> r.1 == |p.chunk.constants|
  {
    var c := Consume(p, S.Identifier, message);
    var added := AddString(c, c.previous.lexeme);
    var made := MakeConstant(added.0, V.Obj(added.1));
    GrowsTrans(p, c, added.0);
    GrowsTrans(p, added.0, made.0);
    made
  }

  /** `var` has been consumed: the name, an initialiser (nil when there is none), and
      the instruction that defines the global under that name. */
  function VarDeclaration(p: Parser): (r: Parser)
    requires Valid(p)
    ensures Valid(r) && Grows(p, r)
    ensures p.current.kind == S.Identifier ==> |r.objects| > |p.objects| && r.objects[|p.objects|] == V.StringObject(p.current.lexeme)
    ensures |p.chunk.constants| <= 255 ==> EndsWith(r.chunk.codes, [C.Encode(C.OpDefineGlobal), |p.chunk.constants|])
    ensures var named := ParseVariable(p, "Expect variable name.").0;
            named.current.kind != S.Equal && |p.chunk.constants| <= 255 ==>
              r.chunk.codes == p.chunk.codes + [C.Encode(C.OpNil), C.Encode(C.OpDefineGlobal), |p.chunk.constants|]
  {
    var v := ParseVariable(p, "Expect variable name.");
    var r := DefineAfterName(v.0, v.1);
    GrowsTrans(p, v.0, r);
    assert r.objects[|p.objects|] == v.0.objects[|p.objects|];
    r
  }

  /** The rest of a declaration once the name is interned as constant `global`: the
      initialiser, the `;` and the definition. */
  function DefineAfterName(p: Parser, global: C.byte): (r: Parser)
    requires Valid(p)
    ensures Valid(r) && Grows(p, r)
    ensures EndsWith(r.chunk.codes, [C.Encode(C.OpDefineGlobal), global])
    ensures p.current.kind != S.Equal ==>
              r.chunk.codes == p.chunk.codes + [C.Encode(C.OpNil), C.Encode(C.OpDefineGlobal), global]
  {
    var i := Initialiser(p);
    var c := Consume(i, S.Semicolon, "Expect ';' after variable declaration.");
    var r := DefineVariable(c, global);
    GrowsTrans(p, i, c);
    GrowsTrans(p, c, r);
    r
  }

  /** `= expression`, or an implicit nil. */
  function Initialiser(p: Parser): (r: Parser)
    requires Valid(p)
    ensures Valid(r) && Grows(p, r)
    ensures p.current.kind != S.Equal ==> r.chunk.codes == p.chunk.codes + [C.Encode(C.OpNil)]
  {
    var m := Match(p, S.Equal);
    if m.0 then
      var r := Expression(m.1);
      GrowsTrans(p, m.1, r);
      r
    else Emit(p, C.OpNil)
  }

  /** Emits the instruction that defines the global named by constant `global`. */
  function DefineVariable(p: Parser, global: C.byte): (r: Parser)
    requires Valid(p)
    ensures Valid(r) && Grows(p, r)
    ensures r.chunk.codes == p.chunk.codes + [C.Encode(C.OpDefineGlobal), global]
  {
    var d := Emit(p, C.OpDefineGlobal);
    var r := EmitByte(d, global);
    GrowsTrans(p, d, r);
    r
  }

  /** The kinds at which `synchronize` stops: those that begin a statement. */
  predicate BeginsStatement(k: S.TokenKind) {
    k in {S.Class, S.Fun, S.Var, S.For, S.If, S.While, S.Print, S.Return}
  }

  /** Leaves panic mode and skips tokens up to a likely statement boundary: just after
      a `;`, just before a keyword that begins a statement, or at the end. */
  function Synchronize(p: Parser): (r: Parser)
    requires Valid(p)
    ensures Valid(r) && Grows(p, r)
    ensures r.current.kind == S.Eof || r.previous.kind == S.Semicolon || BeginsStatement(r.current.kind)
    ensures r.panicMode <==> |r.diagnostics| > |p.diagnostics|
    ensures r.chunk == p.chunk && r.objects == p.objects
  {
    var q := p.(panicMode := false);
    SkipToBoundaryPanics(q);
    SkipToBoundary(q)
  }

  /** The loop of `synchronize`. Panic mode is off while it runs, so an error token met
      on the way is reported and turns panic mode back on. */
  function SkipToBoundary(p: Parser): (r: Parser)
    requires Valid(p)
    ensures Valid(r) && Grows(p, r)
    ensures r.current.kind == S.Eof || r.previous.kind == S.Semicolon || BeginsStatement(r.current.kind)
    ensures r.panicMode ==> p.panicMode || |r.diagnostics| > |p.diagnostics|
    ensures r.chunk == p.chunk && r.objects == p.objects
    decreases Measure(p)
  {
    if p.current.kind == S.Eof || p.previous.kind == S.Semicolon || BeginsStatement(p.current.kind) then p
    else
      var a := Advance(p);
      var r := SkipToBoundary(a);
      GrowsTrans(p, a, r);
      r
  }

  /** Pulling tokens never leaves panic mode, and a report it makes enters it. */
  lemma {:induction false} PullTokenPanics(p: Parser)
    requires Consistent(p) && S.Valid(p.scanner) && S.WellFormedToken(p.previous)
    ensures var r := PullToken(p);
            p.panicMode || |r.diagnostics| > |p.diagnostics| ==> r.panicMode
    decreases |p.scanner.src| - p.scanner.current
  {
    var next := S.ScanToken(p.scanner);
    var q := p.(scanner := next.1, current := next.0);
    if next.0.kind == S.Error {
      PullTokenPanics(ErrorAt(q, q.current, q.current.lexeme));
    }
  }

  /** The same for the loop of `synchronize`. */
  lemma {:induction false} SkipToBoundaryPanics(p: Parser)
    requires Valid(p)
    ensures var r := SkipToBoundary(p);
            p.panicMode || |r.diagnostics| > |p.diagnostics| ==> r.panicMode
    decreases Measure(p)
  {
    if !(p.current.kind == S.Eof || p.previous.kind == S.Semicolon || BeginsStatement(p.current.kind)) {
      var a := Advance(p);
      PullTokenPanics(p.(previous := p.current));
      SkipToBoundaryPanics(a);
    }
  }

  function Declaration(p: Parser): (r: Parser)
    requires Valid(p)
    ensures Valid(r) && Grows(p, r)
    ensures p.current.kind != S.Eof ==> Measure(r) < Measure(p)
  {
    var m := Match(p, S.Var);
    var d := if m.0 then VarDeclaration(m.1) else Statement(p);
    GrowsTrans(p, m.1, d);
    if d.panicMode then
      var r := Synchronize(d);
      GrowsTrans(p, d, r);
      r
    else d
  }

  /** The loop of `compile`: declarations until EOF, which is consumed. */
  function Declarations(p: Parser): (r: Parser)
    requires Valid(p)
    ensures Valid(r) && Grows(p, r)
    ensures r.previous.kind == S.Eof && r.current.kind == S.Eof
    ensures p.current.kind == S.Eof ==>
              r.chunk == p.chunk && r.objects == p.objects && r.diagnostics == p.diagnostics
    decreases Measure(p)
  {
    var m := Match(p, S.Eof);
    if m.0 then m.1
    else
      var d := Declaration(p);
      var r := Declarations(d);
      GrowsTrans(p, d, r);
      r
  }

  /** The outcome of `compile`: whether no error was reported, the chunk, the arena
      after the strings the program allocated, and the reports. */
  datatype Compiled = Compiled(ok: bool, chunk: C.Chunk, objects: V.Arena, diagnostics: seq<Diagnostic>)

  /** The token `previous` holds before the first `advance`; it is never read. */
  const NoToken: S.Token := S.Token(S.Eof, 0, [])

  /** The parse of a whole program: the first token is pulled, then declarations run
      up to EOF. The chunk starts empty and the arena starts as `objects`. */
  function ParseProgram(src: string, objects: V.Arena): (p: Parser)
    ensures Valid(p) && objects <= p.objects
    ensures |src| == 0 ==> p.chunk == C.Empty && p.objects == objects && p.diagnostics == []
  {
    C.EmptyValid();
    var start := Parser(S.Init(src), NoToken, NoToken, false, false, C.Empty, objects, []);
    var first := PullToken(start);
    assert |src| == 0 ==> first.current.kind == S.Eof && first.diagnostics == [];
    Declarations(first)
  }

  /** Compiles a whole program into a fresh chunk, allocating its string objects after
      those already in `objects`. */
  function Compile(src: string, objects: V.Arena): (r: Compiled)
    ensures r.ok <==> r.diagnostics == []
    ensures C.Valid(r.chunk) && V.RefsIn(r.chunk.constants, |r.objects|)
    ensures objects <= r.objects
    ensures |r.chunk.codes| >= 1 && r.chunk.codes[|r.chunk.codes| - 1] == C.Encode(C.OpReturn)
    ensures |src| == 0 ==> r.ok && r.objects == objects && r.chunk.codes == [C.Encode(C.OpReturn)]
  {
    C.EmptyValid();
    var end := Emit(ParseProgram(src, objects), C.OpReturn);
    Compiled(!end.hadError, end.chunk, end.objects, end.diagnostics)
  }
}

=== FILE: numbers.dfy ===
/** The conversion of a number lexeme to a value, `std::stod` in `Parser::number`
    (compiler.cpp). The lexemes the scanner produces are digits with an optional
    fraction, and the conversion is modelled exactly, as a real.
 */
module Numbers {
  import S = Scanner

  function DigitValue(ch: char): (d: nat)
    requires S.IsDigit(ch)
    ensures d < 10
  {
    ch as int - '0' as int
  }

  function Pow10(n: nat): (r: nat)
    ensures r >= 1
  {
    if n == 0 then 1 else 10 * Pow10(n - 1)
  }

  /** The value of a string of decimal digits, most significant digit first. */
  function DecimalValue(s: string): (n: nat)
    requires S.AllDigits(s)
    ensures n < Pow10(|s|)
    decreases |s|
  {
    if s == [] then 0
    else
      var init := s[..|s| - 1];
      assert S.AllDigits(init) by {
        assert forall i :: 0 <= i < |init| ==> init[i] == s[i];
      }
      10 * DecimalValue(init) + DigitValue(s[|s| - 1])
  }

  lemma AllDigitsConcat(a: string, b: string)
    requires S.AllDigits(a) && S.AllDigits(b)
    ensures S.AllDigits(a + b)
  {
    var ab := a + b;
    assert forall i :: 0 <= i < |ab| ==> ab[i] == if i < |a| then a[i] else b[i - |a|];
  }

  lemma ShiftStep(x: int, p: int, y: int, d: int)
    ensures 10 * (x * p + y) + d == x * (10 * p) + (10 * y + d)
  {
  }

  /** Reading the digits of `a` then those of `b` shifts `a` left by `|b|` places. */
  lemma {:induction false} DecimalConcat(a: string, b: string)
    requires S.AllDigits(a) && S.AllDigits(b)
    ensures S.AllDigits(a + b)
    ensures DecimalValue(a + b) == DecimalValue(a) * Pow10(|b|) + DecimalValue(b)
    decreases |b|
  {
    AllDigitsConcat(a, b);
    if b == [] {
      assert a + b == a;
    } else {
      var init := b[..|b| - 1];
      var d := DigitValue(b[|b| - 1]);
      assert S.AllDigits(init) by {
        assert forall i :: 0 <= i < |init| ==> init[i] == b[i];
      }
      assert (a + b)[..|a + b| - 1] == a + init;
      assert (a + b)[|a + b| - 1] == b[|b| - 1];
      DecimalConcat(a, init);
      assert DecimalValue(a + b) == 10 * DecimalValue(a + init) + d;
      assert DecimalValue(b) == 10 * DecimalValue(init) + d;
      ShiftStep(DecimalValue(a), Pow10(|init|), DecimalValue(init), d);
    }
  }

  /** The digits of a number lexeme after its `.`, or none when it has no fraction. */
  function FractionDigits(lex: string): (f: string)
    requires S.IsNumberLexeme(lex)
    ensures S.AllDigits(f)
  {
    var k := S.LeadingDigits(lex);
    if k == |lex| then [] else lex[k + 1..]
  }

  /** The value `std::stod` reads from a number lexeme: the integer part plus the
      fraction digits scaled down by their count. */
  function Stod(lex: string): (x: real)
    requires S.IsNumberLexeme(lex)
    ensures x >= 0.0
  {
    var k := S.LeadingDigits(lex);
    var f := FractionDigits(lex);
    DecimalValue(lex[..k]) as real + DecimalValue(f) as real / Pow10(|f|) as real
  }

  /** The digits of a number lexeme with its `.` removed. */
  function Dotless(lex: string): (d: string)
    requires S.IsNumberLexeme(lex)
    ensures S.AllDigits(d)
  {
    var k := S.LeadingDigits(lex);
    DecimalConcat(lex[..k], FractionDigits(lex));
    lex[..k] + FractionDigits(lex)
  }

  /** Scaling the value by ten per fraction digit gives the integer the lexeme spells
      with its `.` removed. */
  lemma StodScaled(lex: string)
    requires S.IsNumberLexeme(lex)
    ensures Stod(lex) == DecimalValue(Dotless(lex)) as real / Pow10(|FractionDigits(lex)|) as real
  {
    var k := S.LeadingDigits(lex);
    var f := FractionDigits(lex);
    DecimalConcat(lex[..k], f);
    ScaleBack(DecimalValue(lex[..k]), DecimalValue(f), Pow10(|f|), DecimalValue(Dotless(lex)));
  }

  /** A lexeme without a fraction denotes its digits exactly. */
  lemma StodIntegral(lex: string)
    requires S.IsNumberLexeme(lex) && S.AllDigits(lex)
    ensures Stod(lex) == DecimalValue(lex) as real
  {
    S.LeadingDigitsExact(lex, |lex|);
    assert lex[..|lex|] == lex;
  }

  lemma ScaleBack(a: int, b: int, p: int, n: int)
    requires p > 0 && n == a * p + b
    ensures a as real + b as real / p as real == n as real / p as real
  {
    var pr := p as real;
    CastProduct(a, p);
    calc {
      n as real / pr;
      (a as real * pr + b as real) / pr;
      a as real * pr / pr + b as real / pr;
      a as real + b as real / pr;
    }
  }

  lemma CastProduct(a: int, p: int)
    ensures (a * p) as real == a as real * p as real
  {
  }

  /** A lexeme with a fraction converts to the quotient of its dotless digits by a
      power of ten; for instance `2.50` reads as 2.5. */
  lemma StodExample()
    ensures S.IsNumberLexeme("2.50") && Stod("2.50") == 2.5
  {
    var lex := "2.50";
    assert lex[..1] == "2";
    assert S.AllDigits(lex[..1]);
    assert lex[2..] == "50";
    S.NumberLexemeShape(lex, 1);
    S.LeadingDigitsExact(lex, 1);
    assert DecimalValue("2") == 2;
    assert DecimalValue("5") == 5;
    assert "50"[..1] == "5";
    assert DecimalValue("50") == 50;
  }
}

=== FILE: precedence.dfy ===
/** Binding precedences (compiler.h) and the `nextEnum` helper (common.h), which the
    compiler instantiates only at `Precedence`. */
module Precedences {

  datatype Precedence =
    | None | Assignment | Or | And | Equality | Comparison
    | Term | Factor | Unary | Call | Primary

  /** The enumerator's position in the declaration. */
  function Ordinal(p: Precedence): nat {
    match p
    case None => 0
    case Assignment => 1
    case Or => 2
    case And => 3
    case Equality => 4
    case Comparison => 5
    case Term => 6
    case Factor => 7
    case Unary => 8
    case Call => 9
    case Primary => 10
  }

  /** The order the parser compares precedences in. */
  predicate Le(a: Precedence, b: Precedence) {
    Ordinal(a) <= Ordinal(b)
  }

  /** The declared order none < assignment < or < ... < call < primary, as a chain of
      strict steps; each enumerator has its own ordinal. */
  lemma DeclaredOrder()
    ensures Ordinal(None) < Ordinal(Assignment) < Ordinal(Or) < Ordinal(And)
            < Ordinal(Equality) < Ordinal(Comparison) < Ordinal(Term) < Ordinal(Factor)
            < Ordinal(Unary) < Ordinal(Call) < Ordinal(Primary)
    ensures forall a, b :: Ordinal(a) == Ordinal(b) ==> a == b
  {
  }

  /** The enumerator after `p`. The cast in the source only names an enumerator when
      `p` is not the last one. */
  function NextEnum(p: Precedence): (r: Precedence)
    requires p != Primary
    ensures Ordinal(r) == Ordinal(p) + 1
  {
    match p
    case None => Assignment
    case Assignment => Or
    case Or => And
    case And => Equality
    case Equality => Comparison
    case Comparison => Term
    case Term => Factor
    case Factor => Unary
    case Unary => Call
    case Call => Primary
  }

  /** `nextEnum` is strictly increasing, and stays at or below `unary` from operators
      that bind no tighter than `factor`. */
  lemma NextEnumBounds(p: Precedence)
    requires p != Primary
    ensures !Le(NextEnum(p), p)
    ensures Le(p, Factor) ==> Le(NextEnum(p), Unary)
  {
  }

  /** Every level but the lowest binds at least as tightly as assignment. */
  lemma OnlyNoneBelowAssignment(p: Precedence)
    ensures !Le(Assignment, p) <==> p == None
  {
  }
}

=== FILE: scanner.dfy ===
/** The scanner (scanner.cpp): a cursor over the source text that yields one token per
    call.

    The cursor holds the source, the offset where the current lexeme starts, the
    offset of the next unread character and the line counter. Reading at or past the
    end yields the character `'\0'`, as `std::string` does at its own size.

    The source is a sequence of bytes: each `char` of `src` stands for one byte of the
    `std::string` the interpreter reads, so a character outside ASCII occupies as many
    elements as its encoding has bytes, and every offset counts bytes.
 */
module Scanner {
  import opened Wrappers

  datatype TokenKind =
    // single-character punctuation
    | LeftParen | RightParen | LeftBrace | RightBrace
    | Comma | Dot | Minus | Plus | Semicolon | Slash | Star
    // one- or two-character operators
    | Bang | BangEqual | Equal | EqualEqual
    | Greater | GreaterEqual | Less | LessEqual
    // literals
    | Identifier | String | Number
    // keywords
    | And | Class | Else | False | For | Fun | If | Nil | Or
    | Print | Return | Super | This | True | Var | While
    | Error | Eof

  /** A token: its kind, the line it ends on, and its lexeme (for an error token, the
      message instead). */
  datatype Token = Token(kind: TokenKind, line: nat, lexeme: string)

  datatype Cursor = Cursor(src: string, start: nat, current: nat, line: nat)

  predicate Valid(c: Cursor) {
    c.start <= c.current <= |c.src|
  }

  /** The cursor of a new scanner: at the first character, on line 1. */
  function Init(src: string): (c: Cursor)
    ensures Valid(c) && c.src == src && c.current == 0 && c.line == 1
  {
    Cursor(src, 0, 0, 1)
  }

  predicate AtEnd(c: Cursor) {
    c.current >= |c.src|
  }

  function Peek(c: Cursor): char {
    if c.current < |c.src| then c.src[c.current] else '\0'
  }

  function PeekNext(c: Cursor): char {
    if AtEnd(c) || c.current + 1 >= |c.src| then '\0' else c.src[c.current + 1]
  }

  predicate IsDigit(ch: char) {
    '0' <= ch <= '9'
  }

  predicate IsAlpha(ch: char) {
    ('a' <= ch <= 'z') || ('A' <= ch <= 'Z') || ch == '_'
  }

  /** The number of newline characters in `s[i..j]`. */
  function NewlinesIn(s: string, i: nat, j: nat): nat
    requires i <= j <= |s|
    decreases j - i
  {
    if i == j then 0 else (if s[i] == '\n' then 1 else 0) + NewlinesIn(s, i + 1, j)
  }

  lemma {:induction false} NewlinesSplit(s: string, i: nat, j: nat, k: nat)
    requires i <= j <= k <= |s|
    ensures NewlinesIn(s, i, k) == NewlinesIn(s, i, j) + NewlinesIn(s, j, k)
    decreases j - i
  {
    if i < j {
      NewlinesSplit(s, i + 1, j, k);
    }
  }

  /** `r` continues `c` over the same source: it never moves back, and its line counter
      has risen by exactly the newlines consumed in between. */
  predicate Follows(c: Cursor, r: Cursor) {
    && Valid(r)
    && r.src == c.src
    && c.current <= r.current <= |c.src|
    && r.line == c.line + NewlinesIn(c.src, c.current, r.current)
  }

  lemma FollowsTrans(a: Cursor, b: Cursor, c: Cursor)
    requires Follows(a, b) && Follows(b, c)
    ensures Follows(a, c)
  {
    NewlinesSplit(a.src, a.current, b.current, c.current);
  }

  /** Consumes `expected` if it is the next character. */
  function Match(c: Cursor, expected: char): (r: (bool, Cursor))
    requires Valid(c)
    ensures r.0 <==> !AtEnd(c) && c.src[c.current] == expected
    ensures r.1 == if r.0 then c.(current := c.current + 1) else c
  {
    if AtEnd(c) then (false, c)
    else if c.src[c.current] != expected then (false, c)
    else (true, c.(current := c.current + 1))
  }

  /** No newline lies in `s[i..j]`. */
  predicate NoNewline(s: string, i: nat, j: nat)
    requires i <= j <= |s|
  {
    forall t :: i <= t < j ==> s[t] != '\n'
  }

  /** The characters `SkipWhitespace` passes over without looking further. */
  predicate Blank(ch: char) {
    ch == ' ' || ch == '\t' || ch == '\r' || ch == '\n'
  }

  /** Position `i` lies inside a `//` comment that opens at or after `lo`: the comment
      starts at some `j <= i` and no newline comes between `j` and `i`. */
  predicate InComment(s: string, lo: nat, i: nat)
    requires lo <= i < |s|
  {
    exists j :: lo <= j <= i && j + 1 < |s| && s[j] == '/' && s[j + 1] == '/' && NoNewline(s, j, i)
  }

  /** Everything in `s[lo..hi]` is a blank, a newline or comment text. */
  predicate SkippedOnly(s: string, lo: nat, hi: nat)
    requires lo <= hi <= |s|
  {
    forall i :: lo <= i < hi ==> Blank(s[i]) || InComment(s, lo, i)
  }

  lemma InCommentWiden(s: string, lo: nat, mid: nat, i: nat)
    requires lo <= mid <= i < |s| && InComment(s, mid, i)
    ensures InComment(s, lo, i)
  {
    var j :| mid <= j <= i && j + 1 < |s| && s[j] == '/' && s[j + 1] == '/' && NoNewline(s, j, i);
    assert lo <= j;
  }

  lemma SkippedOnlyJoin(s: string, lo: nat, mid: nat, hi: nat)
    requires lo <= mid <= hi <= |s|
    requires SkippedOnly(s, lo, mid) && SkippedOnly(s, mid, hi)
    ensures SkippedOnly(s, lo, hi)
  {
    forall i | lo <= i < hi
      ensures Blank(s[i]) || InComment(s, lo, i)
    {
      if mid <= i && !Blank(s[i]) {
        InCommentWiden(s, lo, mid, i);
      }
    }
  }

  /** The comment loop: advances up to the next newline or the end. */
  function ToLineEnd(c: Cursor): (r: Cursor)
    requires Valid(c)
    ensures Follows(c, r) && r.start == c.start && r.line == c.line
    ensures Peek(r) == '\n' || AtEnd(r)
    ensures Peek(c) != '\n' && !AtEnd(c) ==> r.current > c.current
    decreases |c.src| - c.current
  {
    if Peek(c) != '\n' && !AtEnd(c) then
      var r := ToLineEnd(c.(current := c.current + 1));
      NewlinesSplit(c.src, c.current, c.current + 1, r.current);
      r
    else c
  }

  /** The comment loop passes over no newline. */
  lemma {:induction false} ToLineEndNoNewline(c: Cursor)
    requires Valid(c)
    ensures NoNewline(c.src, c.current, ToLineEnd(c).current)
    decreases |c.src| - c.current
  {
    if Peek(c) != '\n' && !AtEnd(c) {
      ToLineEndNoNewline(c.(current := c.current + 1));
    }
  }

  /** Skips blanks, newlines (counting them) and `//` comments. */
  function SkipWhitespace(c: Cursor): (r: Cursor)
    requires Valid(c)
    ensures Follows(c, r) && r.start == c.start
    ensures Peek(r) !in {' ', '\t', '\r', '\n'}
    ensures !(Peek(r) == '/' && PeekNext(r) == '/')
    decreases |c.src| - c.current
  {
    var ch := Peek(c);
    if ch == ' ' || ch == '\t' || ch == '\r' then
      SkipWhitespace(c.(current := c.current + 1))
    else if ch == '\n' then
      SkipWhitespace(c.(line := c.line + 1, current := c.current + 1))
    else if ch == '/' && PeekNext(c) == '/' then
      var m := ToLineEnd(c);
      var r := SkipWhitespace(m);
      FollowsTrans(c, m, r);
      r
    else c
  }

  /** Everything `SkipWhitespace` passes over is a blank, a newline or the text of a
      `//` comment up to its newline. */
  lemma {:induction false} SkipWhitespaceSkipsOnly(c: Cursor)
    requires Valid(c)
    ensures SkippedOnly(c.src, c.current, SkipWhitespace(c).current)
    decreases |c.src| - c.current
  {
    var ch := Peek(c);
    var r := SkipWhitespace(c);
    if Blank(ch) {
      var n := if ch == '\n' then c.(line := c.line + 1, current := c.current + 1)
               else c.(current := c.current + 1);
      SkipWhitespaceSkipsOnly(n);
      assert r == SkipWhitespace(n);
      assert SkippedOnly(c.src, c.current, c.current + 1) by {
        assert Blank(c.src[c.current]);
      }
      SkippedOnlyJoin(c.src, c.current, c.current + 1, r.current);
    } else if ch == '/' && PeekNext(c) == '/' {
      var m := ToLineEnd(c);
      ToLineEndNoNewline(c);
      SkipWhitespaceSkipsOnly(m);
      assert r == SkipWhitespace(m);
      assert SkippedOnly(c.src, c.current, m.current) by {
        forall i | c.current <= i < m.current
          ensures InComment(c.src, c.current, i)
        {
          assert NoNewline(c.src, c.current, i);
        }
      }
      SkippedOnlyJoin(c.src, c.current, m.current, r.current);
    }
  }

  /** A token whose lexeme is the slice from `start` to `current`. */
  function MakeToken(c: Cursor, kind: TokenKind): (t: Token)
    requires Valid(c)
    ensures t.kind == kind && t.line == c.line && t.lexeme == c.src[c.start..c.current]
  {
    Token(kind, c.line, c.src[c.start..c.current])
  }

  /** An error token carries its message where the lexeme would be. */
  function ErrorToken(c: Cursor, message: string): (t: Token)
    ensures t.kind == Error && t.line == c.line && t.lexeme == message
  {
    Token(Error, c.line, message)
  }

  /** `s[pos..pos+len]` clipped to the end, like `std::string::substr`. */
  function Substr(s: string, pos: nat, len: nat): (r: string)
    requires pos <= |s|
    ensures |r| <= len
    ensures pos + len <= |s| ==> r == s[pos..pos + len]
  {
    if pos + len <= |s| then s[pos..pos + len] else s[pos..]
  }

  /** Returns `kind` when the lexeme has exactly the keyword's length and `rest`
      matches the source at `offset`. The offset is absolute in the source, not
      relative to `start`, so the comparison only reads the lexeme when the lexeme
      starts the source. */
  function CheckKeyword(c: Cursor, offset: nat, rest: string, kind: TokenKind): (r: TokenKind)
    requires Valid(c) && offset <= |c.src|
    ensures r == kind || r == Identifier
    ensures r == kind && kind != Identifier
            ==> c.current - c.start == offset + |rest| && Substr(c.src, offset, |rest|) == rest
    ensures c.current - c.start == offset + |rest| && Substr(c.src, offset, |rest|) == rest ==> r == kind
  {
    var identifierLength := offset + |rest|;
    var strEqual := rest == Substr(c.src, offset, |rest|);
    if c.current - c.start == identifierLength && strEqual then kind else Identifier
  }

  /** The kind of the identifier-shaped lexeme `src[start..current]`: a first-letter
      dispatch, then `CheckKeyword` on the rest. */
  function IdentifierType(c: Cursor): TokenKind
    requires Valid(c) && c.start < c.current
  {
    match c.src[c.start]
    case 'a' => CheckKeyword(c, 1, "nd", And)
    case 'c' => CheckKeyword(c, 1, "lass", Class)
    case 'e' => CheckKeyword(c, 1, "lse", Else)
    case 'i' => CheckKeyword(c, 1, "f", If)
    case 'n' => CheckKeyword(c, 1, "il", Nil)
    case 'o' => CheckKeyword(c, 1, "r", Or)
    case 'p' => CheckKeyword(c, 1, "rint", Print)
    case 'r' => CheckKeyword(c, 1, "eturn", Return)
    case 's' => CheckKeyword(c, 1, "uper", Super)
    case 'v' => CheckKeyword(c, 1, "ar", Var)
    case 'w' => CheckKeyword(c, 1, "hile", While)
    case 'f' =>
      if c.current - c.start > 1 then
        match c.src[c.start + 1]
        case 'a' => CheckKeyword(c, 2, "lse", False)
        case 'o' => CheckKeyword(c, 2, "r", For)
        case 'u' => CheckKeyword(c, 2, "n", Fun)
        case _ => Identifier
      else Identifier
    case 't' =>
      if c.current - c.start > 1 then
        match c.src[c.start + 1]
        case 'h' => CheckKeyword(c, 2, "is", This)
        case 'r' => CheckKeyword(c, 2, "ue", True)
        case _ => Identifier
      else Identifier
    case _ => Identifier
  }

  /** The reserved words of the language, as an independent table. */
  function Keyword(s: string): Option<TokenKind> {
    if s == "and" then Some(And)
    else if s == "class" then Some(Class)
    else if s == "else" then Some(Else)
    else if s == "false" then Some(False)
    else if s == "for" then Some(For)
    else if s == "fun" then Some(Fun)
    else if s == "if" then Some(If)
    else if s == "nil" then Some(Nil)
    else if s == "or" then Some(Or)
    else if s == "print" then Some(Print)
    else if s == "return" then Some(Return)
    else if s == "super" then Some(Super)
    else if s == "this" then Some(This)
    else if s == "true" then Some(True)
    else if s == "var" then Some(Var)
    else if s == "while" then Some(While)
    else None
  }

  /** Advances over letters, digits and underscores. */
  function IdentifierRest(c: Cursor): (r: Cursor)
    requires Valid(c)
    ensures Follows(c, r) && r.start == c.start && r.line == c.line
    ensures !IsAlpha(Peek(r)) && !IsDigit(Peek(r))
    ensures forall i :: c.current <= i < r.current ==> IsAlpha(c.src[i]) || IsDigit(c.src[i])
    decreases |c.src| - c.current
  {
    if IsAlpha(Peek(c)) || IsDigit(Peek(c)) then
      var r := IdentifierRest(c.(current := c.current + 1));
      NewlinesSplit(c.src, c.current, c.current + 1, r.current);
      r
    else c
  }

  function IdentifierToken(c: Cursor): (r: (Token, Cursor))
    requires Valid(c) && c.start < c.current
    ensures Follows(c, r.1) && r.1.start == c.start
    ensures r.0 == MakeToken(r.1, IdentifierType(r.1))
  {
    var r := IdentifierRest(c);
    (MakeToken(r, IdentifierType(r)), r)
  }

  /** Advances over decimal digits. */
  function Digits(c: Cursor): (r: Cursor)
    requires Valid(c)
    ensures Follows(c, r) && r.start == c.start && r.line == c.line
    ensures !IsDigit(Peek(r))
    ensures forall i :: c.current <= i < r.current ==> IsDigit(c.src[i])
    decreases |c.src| - c.current
  {
    if IsDigit(Peek(c)) then
      var r := Digits(c.(current := c.current + 1));
      NewlinesSplit(c.src, c.current, c.current + 1, r.current);
      r
    else c
  }

  predicate AllDigits(s: string) {
    forall i :: 0 <= i < |s| ==> IsDigit(s[i])
  }

  /** The length of the longest all-digit prefix of `s`. */
  function LeadingDigits(s: string): (k: nat)
    ensures k <= |s| && AllDigits(s[..k]) && (k == |s| || !IsDigit(s[k]))
  {
    if |s| == 0 || !IsDigit(s[0]) then 0
    else
      var k := 1 + LeadingDigits(s[1..]);
      assert s[..k] == [s[0]] + s[1..][..k - 1];
      k
  }

  lemma {:induction false} LeadingDigitsExact(s: string, k: nat)
    requires k <= |s| && AllDigits(s[..k]) && (k == |s| || !IsDigit(s[k]))
    ensures LeadingDigits(s) == k
  {
    if k > 0 {
      assert s[..k][0] == s[0];
      assert s[1..][..k - 1] == s[..k][1..];
      LeadingDigitsExact(s[1..], k - 1);
    }
  }

  /** The shape of a number lexeme: one or more digits, then optionally a `.` and one
      or more digits. */
  predicate IsNumberLexeme(s: string) {
    var k := LeadingDigits(s);
    && k >= 1
    && (k == |s| || (s[k] == '.' && k + 1 < |s| && AllDigits(s[k + 1..])))
  }

  /** A lexeme made of `k >= 1` digits, optionally followed by a `.` and further
      digits, is a number lexeme. */
  lemma NumberLexemeShape(lex: string, k: nat)
    requires 1 <= k <= |lex| && AllDigits(lex[..k])
    requires k == |lex| || (lex[k] == '.' && k + 1 < |lex| && AllDigits(lex[k + 1..]))
    ensures IsNumberLexeme(lex)
  {
    LeadingDigitsExact(lex, k);
  }

  /** The fraction of a number: the `.` at `current`, then digits. */
  function Fraction(d: Cursor): (r: Cursor)
    requires Valid(d) && d.start < d.current && Peek(d) == '.' && IsDigit(PeekNext(d))
    requires AllDigits(d.src[d.start..d.current])
    ensures Follows(d, r) && r.start == d.start && !IsDigit(Peek(r))
    ensures r.current > d.current && '.' in d.src[d.start..r.current]
    ensures IsNumberLexeme(d.src[d.start..r.current])
  {
    var f := Digits(d.(current := d.current + 1));
    NewlinesSplit(d.src, d.current, d.current + 1, f.current);
    var k := d.current - d.start;
    var lex := d.src[d.start..f.current];
    assert lex[..k] == d.src[d.start..d.current];
    assert lex[k + 1..] == d.src[d.current + 1..f.current];
    assert lex[k] == '.';
    NumberLexemeShape(lex, k);
    f
  }

  /** Scans the rest of a number whose first digit has been consumed. The `.` is only
      consumed when a digit follows it. */
  function NumberToken(c: Cursor): (r: (Token, Cursor))
    requires Valid(c) && c.start + 1 == c.current && IsDigit(c.src[c.start])
    ensures Follows(c, r.1) && r.1.start == c.start
    ensures r.0 == MakeToken(r.1, Number)
    ensures IsNumberLexeme(r.0.lexeme)
    ensures !IsDigit(Peek(r.1))
    ensures '.' !in r.0.lexeme ==> !(Peek(r.1) == '.' && IsDigit(PeekNext(r.1)))
  {
    var d := Digits(c);
    var lex := c.src[c.start..d.current];
    assert AllDigits(lex);
    if Peek(d) == '.' && IsDigit(PeekNext(d)) then
      var f := Fraction(d);
      FollowsTrans(c, d, f);
      (MakeToken(f, Number), f)
    else
      assert lex[..|lex|] == lex;
      NumberLexemeShape(lex, |lex|);
      (MakeToken(d, Number), d)
  }

  /** The body loop of a string literal: advances to the closing quote or the end,
      counting newlines. */
  function StringBody(c: Cursor): (r: Cursor)
    requires Valid(c)
    ensures Follows(c, r) && r.start == c.start
    ensures Peek(r) == '"' || AtEnd(r)
    ensures forall i :: c.current <= i < r.current ==> c.src[i] != '"'
    decreases |c.src| - c.current
  {
    if Peek(c) != '"' && !AtEnd(c) then
      var c' := if Peek(c) == '\n' then c.(line := c.line + 1) else c;
      StringBody(c'.(current := c.current + 1))
    else c
  }

  /** Scans the rest of a string literal whose opening quote has been consumed. */
  function StringToken(c: Cursor): (r: (Token, Cursor))
    requires Valid(c) && c.start + 1 == c.current && c.src[c.start] == '"'
    ensures Follows(c, r.1) && r.1.start == c.start
    ensures r.0.line == r.1.line
  {
    var e := StringBody(c);
    if AtEnd(e) then
      (ErrorToken(e, "Unterminated string."), e)
    else
      var f := e.(current := e.current + 1);
      NewlinesSplit(c.src, c.current, e.current, f.current);
      (MakeToken(f, String), f)
  }

  /** A one-character operator, or its two-character form when `=` follows. */
  function OneOrTwo(c: Cursor, two: TokenKind, one: TokenKind): (r: (Token, Cursor))
    requires Valid(c)
    ensures Follows(c, r.1) && r.1.start == c.start
    ensures r.0 == MakeToken(r.1, if Match(c, '=').0 then two else one)
  {
    var m := Match(c, '=');
    if m.0 then NewlinesSplit(c.src, c.current, c.current + 1, m.1.current); (MakeToken(m.1, two), m.1)
    else (MakeToken(m.1, one), m.1)
  }

  /** The kinds of the single-character punctuation tokens. */
  function SingleCharKind(ch: char): Option<TokenKind> {
    match ch
    case '(' => Some(LeftParen)
    case ')' => Some(RightParen)
    case '{' => Some(LeftBrace)
    case '}' => Some(RightBrace)
    case ';' => Some(Semicolon)
    case ',' => Some(Comma)
    case '.' => Some(Dot)
    case '-' => Some(Minus)
    case '+' => Some(Plus)
    case '/' => Some(Slash)
    case '*' => Some(Star)
    case _ => None
  }

  /** The two kinds of a character that may start a two-character operator: the
      kind with `=` appended and the kind alone. */
  function OperatorKinds(ch: char): (r: Option<(TokenKind, TokenKind)>)
    ensures r.Some? ==> r.value.0 != r.value.1
  {
    match ch
    case '!' => Some((BangEqual, Bang))
    case '=' => Some((EqualEqual, Equal))
    case '<' => Some((LessEqual, Less))
    case '>' => Some((GreaterEqual, Greater))
    case _ => None
  }

  /** What every call that has consumed at least one character returns: a token that
      ends where the cursor stops, whose lexeme (unless it reports an error) is the
      scanned slice. */
  predicate Scanned(a: Cursor, r: (Token, Cursor)) {
    && Follows(a, r.1)
    && r.1.start == a.start < r.1.current
    && r.0.line == r.1.line
    && r.0.kind != Eof
    && (r.0.kind != Error ==> r.0.lexeme == a.src[r.1.start..r.1.current])
    && (r.0.kind == Error ==> r.0.lexeme in {"Unexpected character.", "Unterminated string."})
    && WellFormedToken(r.0)
  }

  /** The dispatch on the first character of a token, which has just been consumed. */
  function ScanFrom(a: Cursor, ch: char): (r: (Token, Cursor))
    requires Valid(a) && a.start + 1 == a.current && a.src[a.start] == ch
    ensures Scanned(a, r)
  {
    if IsAlpha(ch) then IdentifierScanned(a); IdentifierToken(a)
    else if IsDigit(ch) then NumberScanned(a); NumberToken(a)
    else if SingleCharKind(ch).Some? then
      var r := (MakeToken(a, SingleCharKind(ch).value), a);
      assert Scanned(a, r);
      r
    else if OperatorKinds(ch).Some? then
      var kinds := OperatorKinds(ch).value;
      OperatorScanned(a, kinds.0, kinds.1);
      OneOrTwo(a, kinds.0, kinds.1)
    else if ch == '"' then StringScanned(a); StringToken(a)
    else
      var r := (ErrorToken(a, "Unexpected character."), a);
      assert Scanned(a, r);
      r
  }

  lemma IdentifierScanned(a: Cursor)
    requires Valid(a) && a.start + 1 == a.current && IsAlpha(a.src[a.start])
    ensures Scanned(a, IdentifierToken(a))
  {
  }

  lemma NumberScanned(a: Cursor)
    requires Valid(a) && a.start + 1 == a.current && IsDigit(a.src[a.start])
    ensures Scanned(a, NumberToken(a))
  {
  }

  lemma OperatorScanned(a: Cursor, two: TokenKind, one: TokenKind)
    requires Valid(a) && a.start + 1 == a.current
    requires two !in {Eof, Error, String, Number} && one !in {Eof, Error, String, Number}
    ensures Scanned(a, OneOrTwo(a, two, one))
  {
  }

  lemma StringScanned(a: Cursor)
    requires Valid(a) && a.start + 1 == a.current && a.src[a.start] == '"'
    ensures Scanned(a, StringToken(a))
  {
    StringTokenShape(a);
  }

  /** What the parser relies on about a token's lexeme. */
  predicate WellFormedToken(t: Token) {
    && (t.kind == String ==> |t.lexeme| >= 2 && t.lexeme[0] == '"' && t.lexeme[|t.lexeme| - 1] == '"')
    && (t.kind == Number ==> IsNumberLexeme(t.lexeme))
  }

  /** The cursor just after the first character of the next token. */
  function FirstConsumed(c: Cursor): (a: Cursor)
    requires Valid(c) && !AtEnd(SkipWhitespace(c))
    ensures Valid(a) && a.src == c.src && a.start + 1 == a.current
    ensures a.start == SkipWhitespace(c).current && a.line == SkipWhitespace(c).line
  {
    var w := SkipWhitespace(c);
    w.(start := w.current, current := w.current + 1)
  }

  /** Skips whitespace and comments, then scans one token. */
  function ScanToken(c: Cursor): (r: (Token, Cursor))
    requires Valid(c)
    ensures Follows(c, r.1) && c.current <= r.1.start <= r.1.current
    ensures r.0.line == r.1.line
    ensures r.0.kind == Eof ==> r.1.start == r.1.current == |c.src| && r.0.lexeme == []
    ensures r.0.kind != Eof ==> r.1.start < r.1.current
    ensures r.0.kind != Error ==> r.0.lexeme == c.src[r.1.start..r.1.current]
    ensures r.0.kind == Error ==> r.0.lexeme in {"Unexpected character.", "Unterminated string."}
    ensures WellFormedToken(r.0)
    ensures AtEnd(c) ==> r == (Token(Eof, c.line, []), c.(start := c.current))
  {
    var w := SkipWhitespace(c);
    if AtEnd(w) then
      var s := w.(start := w.current);
      (MakeToken(s, Eof), s)
    else
      var a := FirstConsumed(c);
      var r := ScanFrom(a, c.src[w.current]);
      FollowsTrans(c, w, a);
      FollowsTrans(c, a, r.1);
      r
  }

  /** Once a call has returned EOF the cursor is at the end, and every later call
      returns the same EOF token and leaves the cursor where it is. */
  lemma EofRepeats(c: Cursor)
    requires Valid(c) && ScanToken(c).0.kind == Eof
    ensures ScanToken(ScanToken(c).1) == ScanToken(c)
  {
  }

  /** `ts` holds exactly one EOF token, and it is the last one. */
  predicate EofOnlyLast(ts: seq<Token>) {
    |ts| >= 1 && ts[|ts| - 1].kind == Eof && forall i :: 0 <= i < |ts| - 1 ==> ts[i].kind != Eof
  }

  lemma EofOnlyLastCons(t: Token, rest: seq<Token>)
    requires t.kind != Eof && EofOnlyLast(rest)
    ensures EofOnlyLast([t] + rest)
  {
    var ts := [t] + rest;
    assert forall i :: 1 <= i < |ts| ==> ts[i] == rest[i - 1];
  }

  /** All the tokens from the cursor up to and including the first EOF. */
  function ScanAll(c: Cursor): (ts: seq<Token>)
    requires Valid(c)
    ensures EofOnlyLast(ts)
    ensures |ts| <= |c.src| - c.current + 1
    decreases |c.src| - c.current
  {
    var r := ScanToken(c);
    if r.0.kind == Eof then [r.0]
    else
      var rest := ScanAll(r.1);
      EofOnlyLastCons(r.0, rest);
      [r.0] + rest
  }

  /** Past the whitespace, a call is the dispatch on the first character. */
  lemma ScanTokenDispatch(c: Cursor)
    requires Valid(c) && !AtEnd(SkipWhitespace(c))
    ensures ScanToken(c) == ScanFrom(FirstConsumed(c), c.src[SkipWhitespace(c).current])
  {
  }

  /** `!`, `=`, `<` and `>` yield their two-character kind exactly when the next
      character is `=`, and only then is the `=` consumed. */
  lemma OperatorLookahead(a: Cursor, ch: char)
    requires Valid(a) && a.start + 1 == a.current && a.src[a.start] == ch
    requires OperatorKinds(ch).Some?
    ensures var kinds := OperatorKinds(ch).value;
            var r := ScanFrom(a, ch);
            && r.0.kind in {kinds.0, kinds.1}
            && (r.0.kind == kinds.0 <==> a.current < |a.src| && a.src[a.current] == '=')
            && r.1.current == a.current + (if r.0.kind == kinds.0 then 1 else 0)
  {
    var kinds := OperatorKinds(ch).value;
    assert !IsAlpha(ch) && !IsDigit(ch) && SingleCharKind(ch).None?;
    assert ScanFrom(a, ch) == OneOrTwo(a, kinds.0, kinds.1);
    OneOrTwoLookahead(a, kinds.0, kinds.1);
  }

  lemma OneOrTwoLookahead(a: Cursor, two: TokenKind, one: TokenKind)
    requires Valid(a) && two != one
    ensures var r := OneOrTwo(a, two, one);
            && r.0.kind in {two, one}
            && (r.0.kind == two <==> a.current < |a.src| && a.src[a.current] == '=')
            && r.1.current == a.current + (if r.0.kind == two then 1 else 0)
  {
  }

  /** A character that starts no token is consumed alone and reported as
      "Unexpected character.". */
  lemma UnexpectedCharacter(a: Cursor, ch: char)
    requires Valid(a) && a.start + 1 == a.current && a.src[a.start] == ch
    requires !IsAlpha(ch) && !IsDigit(ch) && ch != '"'
    requires SingleCharKind(ch).None? && OperatorKinds(ch).None?
    ensures ScanFrom(a, ch) == (Token(Error, a.line, "Unexpected character."), a)
  {
  }

  /** `r` is the outcome of scanning a string literal whose opening quote ends at
      `a.current`: "Unterminated string." with the cursor at the end when no quote
      follows; otherwise a string token whose lexeme runs from the opening to the first
      closing quote, both included. */
  predicate StringShape(a: Cursor, r: (Token, Cursor))
    requires Valid(a) && Valid(r.1) && r.1.src == a.src && a.start < r.1.current
  {
    && (r.0.kind == Error <==> forall i :: a.current <= i < |a.src| ==> a.src[i] != '"')
    && (r.0.kind == Error ==> r.0.lexeme == "Unterminated string." && AtEnd(r.1))
    && (r.0.kind != Error ==>
          && r.0.kind == String
          && r.0.lexeme == a.src[a.start..r.1.current]
          && a.src[r.1.current - 1] == '"'
          && forall i :: a.current <= i < r.1.current - 1 ==> a.src[i] != '"')
  }

  /** A string literal that reaches the end of the input without a closing quote
      yields "Unterminated string." and leaves the cursor at the end; otherwise the
      lexeme runs from the opening to the closing quote, both included. */
  lemma StringLiteral(a: Cursor)
    requires Valid(a) && a.start + 1 == a.current && a.src[a.start] == '"'
    ensures StringShape(a, ScanFrom(a, '"'))
  {
    ScanFromQuote(a);
    StringTokenShape(a);
  }

  lemma ScanFromQuote(a: Cursor)
    requires Valid(a) && a.start + 1 == a.current && a.src[a.start] == '"'
    ensures ScanFrom(a, '"') == StringToken(a)
  {
    assert !IsAlpha('"') && !IsDigit('"') && SingleCharKind('"').None? && OperatorKinds('"').None?;
  }

  lemma StringTokenShape(a: Cursor)
    requires Valid(a) && a.start + 1 == a.current && a.src[a.start] == '"'
    ensures StringShape(a, StringToken(a)) && WellFormedToken(StringToken(a).0)
  {
    var e := StringBody(a);
    if !AtEnd(e) {
      assert a.src[e.current] == '"';
      var lex := a.src[a.start..e.current + 1];
      assert lex[0] == '"' && lex[|lex| - 1] == '"';
    }
  }

  /** Where the lexeme starts the source, `CheckKeyword` compares the lexeme itself. */
  lemma CheckKeywordAtSourceStart(c: Cursor, offset: nat, rest: string, kind: TokenKind)
    requires Valid(c) && c.start == 0 && offset <= c.current
    ensures CheckKeyword(c, offset, rest, kind) == kind
            <== c.src[..c.current] == c.src[..offset] + rest
    ensures CheckKeyword(c, offset, rest, kind) == kind && kind != Identifier
            ==> c.src[..c.current] == c.src[..offset] + rest
  {
    if c.current == offset + |rest| {
      assert c.src[..c.current] == c.src[..offset] + c.src[offset..c.current];
    }
  }

  /** One keyword of the first-letter dispatch, checked from the end of `head`: at
      the source start, the check agrees with the table. */
  lemma OneKeyword(c: Cursor, head: string, rest: string, kind: TokenKind)
    requires Valid(c) && c.start == 0 && |head| <= c.current
    requires c.src[..|head|] == head && kind != Identifier
    requires Keyword(c.src[..c.current]) == if c.src[..c.current] == head + rest then Some(kind) else None
    ensures CheckKeyword(c, |head|, rest, kind) == Keyword(c.src[..c.current]).GetOr(Identifier)
  {
    CheckKeywordAtSourceStart(c, |head|, rest, kind);
  }

  // The nine lemmas below each settle the keywords of one or two first letters of
  // the dispatch; `KeywordsAtSourceStart` combines them. They are split by letter
  // only to keep each proof small for the solver.

  lemma KeywordsAC(c: Cursor)
    requires Valid(c) && c.start == 0 < c.current && c.src[0] in {'a', 'c'}
    ensures IdentifierType(c) == Keyword(c.src[..c.current]).GetOr(Identifier)
  {
    var s := c.src[..c.current];
    assert s[0] == c.src[0];
    assert c.src[..1] == [c.src[0]];
    match c.src[0]
    case 'a' =>
      assert Keyword(s) == (if s == "and" then Some(And) else None);
      OneKeyword(c, "a", "nd", And);
    case 'c' =>
      assert Keyword(s) == (if s == "class" then Some(Class) else None);
      OneKeyword(c, "c", "lass", Class);
  }

  lemma KeywordsEI(c: Cursor)
    requires Valid(c) && c.start == 0 < c.current && c.src[0] in {'e', 'i'}
    ensures IdentifierType(c) == Keyword(c.src[..c.current]).GetOr(Identifier)
  {
    var s := c.src[..c.current];
    assert s[0] == c.src[0];
    assert c.src[..1] == [c.src[0]];
    match c.src[0]
    case 'e' =>
      assert Keyword(s) == (if s == "else" then Some(Else) else None);
      OneKeyword(c, "e", "lse", Else);
    case 'i' =>
      assert Keyword(s) == (if s == "if" then Some(If) else None);
      OneKeyword(c, "i", "f", If);
  }

  lemma KeywordsNO(c: Cursor)
    requires Valid(c) && c.start == 0 < c.current && c.src[0] in {'n', 'o'}
    ensures IdentifierType(c) == Keyword(c.src[..c.current]).GetOr(Identifier)
  {
    var s := c.src[..c.current];
    assert s[0] == c.src[0];
    assert c.src[..1] == [c.src[0]];
    match c.src[0]
    case 'n' =>
      assert Keyword(s) == (if s == "nil" then Some(Nil) else None);
      OneKeyword(c, "n", "il", Nil);
    case 'o' =>
      assert Keyword(s) == (if s == "or" then Some(Or) else None);
      OneKeyword(c, "o", "r", Or);
  }

  lemma KeywordsPR(c: Cursor)
    requires Valid(c) && c.start == 0 < c.current && c.src[0] in {'p', 'r'}
    ensures IdentifierType(c) == Keyword(c.src[..c.current]).GetOr(Identifier)
  {
    var s := c.src[..c.current];
    assert s[0] == c.src[0];
    assert c.src[..1] == [c.src[0]];
    match c.src[0]
    case 'p' =>
      assert Keyword(s) == (if s == "print" then Some(Print) else None);
      OneKeyword(c, "p", "rint", Print);
    case 'r' =>
      assert Keyword(s) == (if s == "return" then Some(Return) else None);
      OneKeyword(c, "r", "eturn", Return);
  }

  lemma KeywordsS(c: Cursor)
    requires Valid(c) && c.start == 0 < c.current && c.src[0] == 's'
    ensures IdentifierType(c) == Keyword(c.src[..c.current]).GetOr(Identifier)
  {
    var s := c.src[..c.current];
    assert s[0] == c.src[0];
    assert c.src[..1] == [c.src[0]];
    assert Keyword(s) == (if s == "super" then Some(Super) else None);
    OneKeyword(c, "s", "uper", Super);
  }

  lemma KeywordsV(c: Cursor)
    requires Valid(c) && c.start == 0 < c.current && c.src[0] == 'v'
    ensures IdentifierType(c) == Keyword(c.src[..c.current]).GetOr(Identifier)
  {
    var s := c.src[..c.current];
    assert s[0] == c.src[0];
    assert c.src[..1] == [c.src[0]];
    assert Keyword(s) == (if s == "var" then Some(Var) else None);
    OneKeyword(c, "v", "ar", Var);
  }

  lemma KeywordsW(c: Cursor)
    requires Valid(c) && c.start == 0 < c.current && c.src[0] in {'w'}
    ensures IdentifierType(c) == Keyword(c.src[..c.current]).GetOr(Identifier)
  {
    var s := c.src[..c.current];
    assert s[0] == c.src[0];
    assert c.src[..1] == [c.src[0]];
    match c.src[0]
    case 'w' =>
      assert Keyword(s) == (if s == "while" then Some(While) else None);
      OneKeyword(c, "w", "hile", While);
  }

  lemma KeywordsF(c: Cursor)
    requires Valid(c) && c.start == 0 < c.current && c.src[0] == 'f'
    ensures IdentifierType(c) == Keyword(c.src[..c.current]).GetOr(Identifier)
  {
    var s := c.src[..c.current];
    assert s[0] == c.src[0];
    assert c.src[..1] == [c.src[0]];
    if c.current > 1 {
      assert s[1] == c.src[1];
      match c.src[1]
      case 'a' =>
        assert Keyword(s) == (if s == "false" then Some(False) else None);
        assert c.src[..2] == "fa";
        OneKeyword(c, "fa", "lse", False);
      case 'o' =>
        assert Keyword(s) == (if s == "for" then Some(For) else None);
        assert c.src[..2] == "fo";
        OneKeyword(c, "fo", "r", For);
      case 'u' =>
        assert Keyword(s) == (if s == "fun" then Some(Fun) else None);
        assert c.src[..2] == "fu";
        OneKeyword(c, "fu", "n", Fun);
      case _ =>
        assert Keyword(s) == None;
    } else {
      assert s == "f";
    }
  }

  lemma KeywordsT(c: Cursor)
    requires Valid(c) && c.start == 0 < c.current && c.src[0] == 't'
    ensures IdentifierType(c) == Keyword(c.src[..c.current]).GetOr(Identifier)
  {
    var s := c.src[..c.current];
    assert s[0] == c.src[0];
    assert c.src[..1] == [c.src[0]];
    if c.current > 1 {
      assert s[1] == c.src[1];
      match c.src[1]
      case 'h' =>
        assert Keyword(s) == (if s == "this" then Some(This) else None);
        assert c.src[..2] == "th";
        OneKeyword(c, "th", "is", This);
      case 'r' =>
        assert Keyword(s) == (if s == "true" then Some(True) else None);
        assert c.src[..2] == "tr";
        OneKeyword(c, "tr", "ue", True);
      case _ =>
        assert Keyword(s) == None;
    } else {
      assert s == "t";
    }
  }

  /** Where the lexeme starts the source, absolute and relative offsets coincide and
      `IdentifierType` agrees with the keyword table. */
  lemma KeywordsAtSourceStart(c: Cursor)
    requires Valid(c) && c.start == 0 < c.current
    ensures IdentifierType(c) == Keyword(c.src[..c.current]).GetOr(Identifier)
  {
    var s := c.src[..c.current];
    assert s[0] == c.src[0];
    assert c.src[..1] == [c.src[0]];
    var h := c.src[0];
    if h in {'a', 'c'} {
      KeywordsAC(c);
    } else if h in {'e', 'i'} {
      KeywordsEI(c);
    } else if h in {'n', 'o'} {
      KeywordsNO(c);
    } else if h in {'p', 'r'} {
      KeywordsPR(c);
    } else if h == 's' {
      KeywordsS(c);
    } else if h == 'v' {
      KeywordsV(c);
    } else if h == 'w' {
      KeywordsW(c);
    } else if h == 'f' {
      KeywordsF(c);
    } else if h == 't' {
      KeywordsT(c);
    } else {
      assert Keyword(s) == None;
    }
  }

  /** In `print nil` the word `nil` starts at offset 6, so the keyword check reads
      `ri` from the start of the source and the word is typed as an identifier. */
  lemma NilAfterPrintIsIdentifier()
    ensures var c := Cursor("print nil", 6, 9, 1);
            && Keyword(c.src[c.start..c.current]) == Some(Nil)
            && IdentifierType(c) == Identifier
  {
    var c := Cursor("print nil", 6, 9, 1);
    assert c.src[6..9] == "nil";
    assert c.src[6] == 'n';
    assert Substr(c.src, 1, 2) == "ri";
  }

  /** A keyword later in the source is still recognised when the source happens to
      start with the same keyword. */
  lemma SecondVarIsKeyword()
    ensures var c := Cursor("var a; var b;", 7, 10, 1);
            && c.src[c.start..c.current] == "var"
            && IdentifierType(c) == Var
  {
    var c := Cursor("var a; var b;", 7, 10, 1);
    assert c.src[7..10] == "var";
    assert c.src[7] == 'v';
    assert Substr(c.src, 1, 2) == "ar";
  }

  /** A word that is not a keyword is typed as one when its first letter and length
      match a keyword spelt out at the start of the source. */
  lemma NonKeywordTypedVar()
    ensures var c := Cursor("var a; vxx", 7, 10, 1);
            && Keyword(c.src[c.start..c.current]) == None
            && IdentifierType(c) == Var
  {
    var c := Cursor("var a; vxx", 7, 10, 1);
    assert c.src[7..10] == "vxx";
    assert c.src[7] == 'v';
    assert Substr(c.src, 1, 2) == "ar";
  }

  /** The source is scanned byte by byte, so a multi-byte character near the start
      moves the text the keyword check reads. In `"éue"; true;` stored as bytes, `é` is
      the two bytes C3 A9 and the check for `true` reads A9 `u` instead of `ue`. */
  lemma MultiByteShiftsKeyword()
    ensures var c := Cursor("\"\U{C3}\U{A9}ue\"; true;", 8, 12, 1);
            && Keyword(c.src[c.start..c.current]) == Some(True)
            && IdentifierType(c) == Identifier
  {
    var c := Cursor("\"\U{C3}\U{A9}ue\"; true;", 8, 12, 1);
    assert c.src[8..12] == "true";
    assert c.src[8] == 't' && c.src[9] == 'r';
    assert Substr(c.src, 2, 2) == "\U{A9}u";
  }
}

=== FILE: semantics.dfy ===
/** What the code the compiler emits does when the machine runs it: the opcode
    sequences of `binary`, `unary` and `literal` (compiler.cpp) against the dispatch
    loop of vm.cpp, and what the source language means by each operator. */
module Semantics {
  import opened Wrappers
  import opened Values
  import C = Chunks
  import S = Scanner
  import Compiler
  import opened Vm

  /** Runs `n` instructions, each of which must be defined and continue. */
  function Exec(m: Machine, n: nat): Option<Machine>
    requires Valid(m)
    decreases n, 1
  {
    if n == 0 then Some(m) else ExecStep(m, n)
  }

  /** Runs the instruction at `ip`, then `n - 1` more. */
  function ExecStep(m: Machine, n: nat): Option<Machine>
    requires Valid(m) && n > 0
    decreases n, 0
  {
    if !CanStep(m) then None
    else
      match Step(m)
      case Next(m') => Exec(m', n - 1)
      case _ => None
  }

  /** The bytes from `ip` on start with `bytes`. */
  predicate CodeAt(m: Machine, bytes: seq<C.byte>) {
    m.ip + |bytes| <= |m.chunk.codes| && m.chunk.codes[m.ip..m.ip + |bytes|] == bytes
  }

  /** The value of `a op b` for two numbers, as the language defines the operator
      the token `k` spells (nil for tokens that are no binary operator). */
  function Meaning(k: S.TokenKind, a: Num, b: Num): Value {
    match k
    case BangEqual => Bool(a != b)
    case EqualEqual => Bool(a == b)
    case Greater => Bool(a > b)
    case GreaterEqual => Bool(a >= b)
    case Less => Bool(a < b)
    case LessEqual => Bool(a <= b)
    case Plus => Number(a + b)
    case Minus => Number(a - b)
    case Star => Number(a * b)
    case Slash => Number(if b == 0.0 then 0.0 else a / b)
    case _ => Nil
  }

  /** The `binaryOp` instantiation an opcode dispatches to. */
  function ArithOf(op: C.OpCode): Option<Arith> {
    match op
    case OpGreater => Some(Greater)
    case OpLess => Some(Less)
    case OpAdd => Some(Add)
    case OpSubtract => Some(Subtract)
    case OpMultiply => Some(Multiply)
    case OpDivide => Some(Divide)
    case _ => None
  }

  // ---------------------------------------------------------------------------
  // Single instructions

  /** The instruction at `ip` is `op`, executed with its byte read. */
  lemma StepIs(m: Machine, op: C.OpCode)
    requires Valid(m) && m.ip < |m.chunk.codes| && m.chunk.codes[m.ip] == C.Encode(op)
    requires CanExecute(m.(ip := m.ip + 1), op)
    ensures CanStep(m) && Step(m) == Execute(m.(ip := m.ip + 1), op)
  {
    C.DecodeEncode(op, 0);
  }

  /** Running one more instruction that continues. */
  lemma ExecNext(m: Machine, n: nat, m': Machine)
    requires Valid(m) && n > 0 && CanStep(m) && Step(m) == Next(m')
    ensures Valid(m') && Exec(m, n) == Exec(m', n - 1)
  {
  }

  lemma ExecOne(m: Machine, m': Machine)
    requires Valid(m) && CanStep(m) && Step(m) == Next(m')
    ensures Exec(m, 1) == Some(m')
  {
    ExecNext(m, 1, m');
  }

  lemma ExecTwo(m: Machine, m': Machine, m'': Machine)
    requires Valid(m) && CanStep(m) && Step(m) == Next(m')
    requires Valid(m') && CanStep(m') && Step(m') == Next(m'')
    ensures Exec(m, 2) == Some(m'')
  {
    ExecNext(m, 2, m');
    ExecOne(m', m'');
  }

  lemma StepEqualNumbers(m: Machine, s: seq<Value>, a: Num, b: Num)
    requires Valid(m) && m.ip < |m.chunk.codes| && m.chunk.codes[m.ip] == C.Encode(C.OpEqual)
    requires m.stack == s + [Number(a), Number(b)]
    ensures CanStep(m) && Step(m) == Next(m.(ip := m.ip + 1, stack := s + [Bool(a == b)]))
  {
    StepIs(m, C.OpEqual);
    assert (s + [Number(a), Number(b)])[..|s|] == s;
  }

  lemma StepNot(m: Machine, s: seq<Value>, v: Value)
    requires Valid(m) && m.ip < |m.chunk.codes| && m.chunk.codes[m.ip] == C.Encode(C.OpNot)
    requires m.stack == s + [v]
    ensures CanStep(m) && Step(m) == Next(m.(ip := m.ip + 1, stack := s + [Bool(IsFalsey(v))]))
  {
    StepIs(m, C.OpNot);
    assert (s + [v])[..|s|] == s;
  }

  lemma StepArith(m: Machine, op: C.OpCode, s: seq<Value>, a: Num, b: Num)
    requires ArithOf(op).Some?
    requires Valid(m) && m.ip < |m.chunk.codes| && m.chunk.codes[m.ip] == C.Encode(op)
    requires m.stack == s + [Number(a), Number(b)]
    ensures CanStep(m)
    ensures Step(m) == Next(m.(ip := m.ip + 1, stack := s + [ApplyArith(ArithOf(op).value, a, b)]))
  {
    StepIs(m, op);
    assert (s + [Number(a), Number(b)])[..|s|] == s;
  }

  lemma StepNegate(m: Machine, s: seq<Value>, x: Num)
    requires Valid(m) && m.ip < |m.chunk.codes| && m.chunk.codes[m.ip] == C.Encode(C.OpNegate)
    requires m.stack == s + [Number(x)]
    ensures CanStep(m) && Step(m) == Next(m.(ip := m.ip + 1, stack := s + [Number(-x)]))
  {
    StepIs(m, C.OpNegate);
    assert (s + [Number(x)])[..|s|] == s;
  }

  /** NIL, TRUE and FALSE push their value. */
  lemma StepLiteral(m: Machine, op: C.OpCode)
    requires op in {C.OpNil, C.OpTrue, C.OpFalse}
    requires Valid(m) && m.ip < |m.chunk.codes| && m.chunk.codes[m.ip] == C.Encode(op)
    ensures CanStep(m)
    ensures Step(m) == Next(m.(ip := m.ip + 1,
                               stack := m.stack + [if op == C.OpNil then Nil else Bool(op == C.OpTrue)]))
  {
    StepIs(m, op);
  }

  /** The first bytes at `ip`, read off a `CodeAt` fact. */
  lemma CodeAtBytes(m: Machine, bytes: seq<C.byte>)
    requires CodeAt(m, bytes)
    ensures forall i :: 0 <= i < |bytes| ==> m.chunk.codes[m.ip + i] == bytes[i]
  {
    forall i | 0 <= i < |bytes|
      ensures m.chunk.codes[m.ip + i] == bytes[i]
    {
      assert m.chunk.codes[m.ip..m.ip + |bytes|][i] == m.chunk.codes[m.ip + i];
    }
  }

  // ---------------------------------------------------------------------------
  // Compiled operators

  /** The arithmetic opcode `binary` emits for an operator computes what the
      operator denotes. */
  lemma ArithMeaning(k: S.TokenKind, a: Num, b: Num)
    requires k in {S.Greater, S.Less, S.Plus, S.Minus, S.Star, S.Slash}
    ensures |Compiler.OperatorCode(k)| == 1
    ensures ArithOf(Compiler.OperatorCode(k)[0]).Some?
    ensures ApplyArith(ArithOf(Compiler.OperatorCode(k)[0]).value, a, b) == Meaning(k, a, b)
  {
  }

  /** The code `binary` emits for an operator computes, from the two numbers on top
      of the stack, the value the operator denotes: in particular `!=`, `>=` and
      `<=`, which are compiled as a comparison followed by a negation. */
  lemma OperatorSemantics(m: Machine, k: S.TokenKind, s: seq<Value>, a: Num, b: Num)
    requires Compiler.OperatorCode(k) != []
    requires Valid(m) && CodeAt(m, C.EncodeAll(Compiler.OperatorCode(k)))
    requires m.stack == s + [Number(a), Number(b)]
    ensures var n := |Compiler.OperatorCode(k)|;
            Exec(m, n) == Some(m.(ip := m.ip + n, stack := s + [Meaning(k, a, b)]))
  {
    if k in {S.BangEqual, S.GreaterEqual, S.LessEqual} {
      NegatedOperatorSemantics(m, k, s, a, b);
    } else {
      DirectOperatorSemantics(m, k, s, a, b);
    }
  }

  /** `!=`, `>=` and `<=`: a comparison, then NOT. */
  lemma NegatedOperatorSemantics(m: Machine, k: S.TokenKind, s: seq<Value>, a: Num, b: Num)
    requires k in {S.BangEqual, S.GreaterEqual, S.LessEqual}
    requires Valid(m) && CodeAt(m, C.EncodeAll(Compiler.OperatorCode(k)))
    requires m.stack == s + [Number(a), Number(b)]
    ensures |Compiler.OperatorCode(k)| == 2
    ensures Exec(m, 2) == Some(m.(ip := m.ip + 2, stack := s + [Meaning(k, a, b)]))
  {
    var first := if k == S.BangEqual then C.OpEqual else if k == S.GreaterEqual then C.OpLess else C.OpGreater;
    assert C.EncodeAll(Compiler.OperatorCode(k)) == [C.Encode(first), C.Encode(C.OpNot)];
    CodeAtBytes(m, [C.Encode(first), C.Encode(C.OpNot)]);
    if k == S.BangEqual {
      StepEqualNumbers(m, s, a, b);
      Negated(m, s, a == b);
    } else if k == S.GreaterEqual {
      StepArith(m, C.OpLess, s, a, b);
      Negated(m, s, a < b);
    } else {
      StepArith(m, C.OpGreater, s, a, b);
      Negated(m, s, a > b);
    }
  }

  /** `==` and the arithmetic operators: one instruction. */
  lemma DirectOperatorSemantics(m: Machine, k: S.TokenKind, s: seq<Value>, a: Num, b: Num)
    requires Compiler.OperatorCode(k) != [] && k !in {S.BangEqual, S.GreaterEqual, S.LessEqual}
    requires Valid(m) && CodeAt(m, C.EncodeAll(Compiler.OperatorCode(k)))
    requires m.stack == s + [Number(a), Number(b)]
    ensures |Compiler.OperatorCode(k)| == 1
    ensures Exec(m, 1) == Some(m.(ip := m.ip + 1, stack := s + [Meaning(k, a, b)]))
  {
    CodeAtBytes(m, C.EncodeAll(Compiler.OperatorCode(k)));
    if k == S.EqualEqual {
      StepEqualNumbers(m, s, a, b);
      ExecOne(m, m.(ip := m.ip + 1, stack := s + [Bool(a == b)]));
    } else {
      ArithMeaning(k, a, b);
      var op := Compiler.OperatorCode(k)[0];
      StepArith(m, op, s, a, b);
      ExecOne(m, m.(ip := m.ip + 1, stack := s + [Meaning(k, a, b)]));
    }
  }

  /** A comparison whose result is then negated by NOT. */
  lemma Negated(m: Machine, s: seq<Value>, v: bool)
    requires Valid(m) && m.ip + 1 < |m.chunk.codes| && m.chunk.codes[m.ip + 1] == C.Encode(C.OpNot)
    requires CanStep(m) && Step(m) == Next(m.(ip := m.ip + 1, stack := s + [Bool(v)]))
    ensures Exec(m, 2) == Some(m.(ip := m.ip + 2, stack := s + [Bool(!v)]))
  {
    var m1 := m.(ip := m.ip + 1, stack := s + [Bool(v)]);
    StepNot(m1, s, Bool(v));
    ExecTwo(m, m1, m1.(ip := m1.ip + 1, stack := s + [Bool(!v)]));
  }

  /** Every literal keyword leaves `true` on top of the stack: the cases of
      `literal` fall through, so `false` pushes false, nil and true, and `nil` pushes
      nil and true. */
  lemma LiteralAlwaysTrue(m: Machine, k: S.TokenKind)
    requires Compiler.LiteralCode(k) != []
    requires Valid(m) && CodeAt(m, C.EncodeAll(Compiler.LiteralCode(k)))
    ensures var n := |Compiler.LiteralCode(k)|;
            var r := Exec(m, n);
            && r.Some?
            && r.value.ip == m.ip + n
            && |r.value.stack| == |m.stack| + n
            && m.stack <= r.value.stack
            && r.value.stack[|r.value.stack| - 1] == Bool(true)
  {
    var ops := Compiler.LiteralCode(k);
    assert ops == if k == S.False then [C.OpFalse, C.OpNil, C.OpTrue]
                 else if k == S.Nil then [C.OpNil, C.OpTrue]
                 else [C.OpTrue];
    CodeAtBytes(m, C.EncodeAll(ops));
    PushesTrueFrom(m, ops);
  }

  /** `r` is `m` after `n` instructions that pushed `n` values, the last of them
      true. */
  predicate PushedEndingTrue(m: Machine, r: Option<Machine>, n: nat) {
    && r.Some?
    && r.value.ip == m.ip + n
    && |r.value.stack| == |m.stack| + n
    && m.stack <= r.value.stack
    && |r.value.stack| > 0
    && r.value.stack[|r.value.stack| - 1] == Bool(true)
  }

  /** Runs a sequence of pushes of literals ending with TRUE. */
  lemma {:induction false} PushesTrueFrom(m: Machine, ops: seq<C.OpCode>)
    requires ops != [] && ops[|ops| - 1] == C.OpTrue
    requires forall i :: 0 <= i < |ops| ==> ops[i] in {C.OpNil, C.OpTrue, C.OpFalse}
    requires Valid(m) && m.ip + |ops| <= |m.chunk.codes|
    requires forall i :: 0 <= i < |ops| ==> m.chunk.codes[m.ip + i] == C.Encode(ops[i])
    ensures PushedEndingTrue(m, Exec(m, |ops|), |ops|)
    decreases |ops|
  {
    var op := ops[0];
    assert m.chunk.codes[m.ip + 0] == C.Encode(ops[0]);
    StepLiteral(m, op);
    var m1 := m.(ip := m.ip + 1, stack := m.stack + [if op == C.OpNil then Nil else Bool(op == C.OpTrue)]);
    if |ops| == 1 {
      assert op == C.OpTrue;
      ExecOne(m, m1);
      assert m1.stack[|m1.stack| - 1] == Bool(true);
    } else {
      var rest := ops[1..];
      forall i | 0 <= i < |rest|
        ensures m1.chunk.codes[m1.ip + i] == C.Encode(rest[i])
      {
        assert m.chunk.codes[m.ip + (i + 1)] == C.Encode(ops[i + 1]);
      }
      ExecNext(m, |ops|, m1);
      PushesTrueFrom(m1, rest);
      var r1 := Exec(m1, |rest|);
      assert PushedEndingTrue(m1, r1, |rest|);
      assert Exec(m, |ops|) == r1;
      assert m.stack <= m1.stack <= r1.value.stack;
    }
  }

  /** The code `unary` emits for `!` replaces its operand by whether it is falsey. */
  lemma NotSemantics(m: Machine, s: seq<Value>, v: Value)
    requires Valid(m) && CodeAt(m, C.EncodeAll(Compiler.UnaryCode(S.Bang))) && m.stack == s + [v]
    ensures Exec(m, 1) == Some(m.(ip := m.ip + 1, stack := s + [Bool(IsFalsey(v))]))
  {
    assert C.EncodeAll(Compiler.UnaryCode(S.Bang)) == [C.Encode(C.OpNot)];
    CodeAtBytes(m, [C.Encode(C.OpNot)]);
    StepNot(m, s, v);
    ExecOne(m, m.(ip := m.ip + 1, stack := s + [Bool(IsFalsey(v))]));
  }

  /** The code `unary` emits for `-` negates a number. */
  lemma NegateSemantics(m: Machine, s: seq<Value>, x: Num)
    requires Valid(m) && CodeAt(m, C.EncodeAll(Compiler.UnaryCode(S.Minus))) && m.stack == s + [Number(x)]
    ensures Exec(m, 1) == Some(m.(ip := m.ip + 1, stack := s + [Number(-x)]))
  {
    assert C.EncodeAll(Compiler.UnaryCode(S.Minus)) == [C.Encode(C.OpNegate)];
    CodeAtBytes(m, [C.Encode(C.OpNegate)]);
    StepNegate(m, s, x);
    ExecOne(m, m.(ip := m.ip + 1, stack := s + [Number(-x)]));
  }

  /** Negating anything but a number is a runtime error that empties the stack. */
  lemma NegateNonNumber(m: Machine, s: seq<Value>, v: Value)
    requires Valid(m) && CodeAt(m, C.EncodeAll(Compiler.UnaryCode(S.Minus)))
    requires m.stack == s + [v] && !v.Number?
    ensures CanStep(m)
    ensures Step(m) == Failed("Operand must be a number.", ReportedLine(m.chunk.lines, m.ip),
                              m.(ip := m.ip + 1, stack := []))
  {
    assert m.chunk.codes[m.ip] == C.Encode(C.OpNegate) by {
      assert m.chunk.codes[m.ip..m.ip + 1][0] == m.chunk.codes[m.ip];
    }
    C.DecodeEncode(C.OpNegate, 0);
  }

  /** CONSTANT pushes the pool entry its operand names and moves past the operand. */
  lemma ConstantSemantics(m: Machine, index: C.byte)
    requires Valid(m) && CodeAt(m, [C.Encode(C.OpConstant), index])
    requires index < |m.chunk.constants|
    ensures Exec(m, 1) == Some(m.(ip := m.ip + 2, stack := m.stack + [m.chunk.constants[index]]))
  {
    assert m.chunk.codes[m.ip] == C.Encode(C.OpConstant) by {
      assert m.chunk.codes[m.ip..m.ip + 2][0] == m.chunk.codes[m.ip];
    }
    assert m.chunk.codes[m.ip + 1] == index by {
      assert m.chunk.codes[m.ip..m.ip + 2][1] == m.chunk.codes[m.ip + 1];
    }
    C.DecodeEncode(C.OpConstant, 0);
  }

  /** RETURN pops the top and ends the run successfully. */
  lemma ReturnSemantics(m: Machine, s: seq<Value>, v: Value)
    requires Valid(m) && CodeAt(m, [C.Encode(C.OpReturn)])
    requires m.stack == s + [v]
    ensures Run(m) == Finished(InterpretOk, m.(ip := m.ip + 1, stack := s))
  {
    assert m.chunk.codes[m.ip] == C.Encode(C.OpReturn) by {
      assert m.chunk.codes[m.ip..m.ip + 1][0] == m.chunk.codes[m.ip];
    }
    var m1 := m.(ip := m.ip + 1);
    StepIs(m, C.OpReturn);
    assert (s + [v])[..|s|] == s;
  }

  /** POP, which every expression statement ends with, leaves the stack as it is. */
  lemma PopLeavesStack(m: Machine)
    requires Valid(m) && CodeAt(m, [C.Encode(C.OpPop)])
    ensures Exec(m, 1) == Some(m.(ip := m.ip + 1))
  {
    assert m.chunk.codes[m.ip] == C.Encode(C.OpPop) by {
      assert m.chunk.codes[m.ip..m.ip + 1][0] == m.chunk.codes[m.ip];
    }
    C.DecodeEncode(C.OpPop, 0);
  }

  /** The global's name index after DEFINE_GLOBAL is run as an instruction of its
      own: when it is the byte of NIL, a nil is pushed. */
  lemma DefineGlobalOperandRuns(m: Machine)
    requires Valid(m) && CodeAt(m, [C.Encode(C.OpDefineGlobal), C.Encode(C.OpNil)])
    ensures Exec(m, 2) == Some(m.(ip := m.ip + 2, stack := m.stack + [Nil]))
  {
    var codes := m.chunk.codes;
    assert codes[m.ip] == C.Encode(C.OpDefineGlobal) by {
      assert codes[m.ip..m.ip + 2][0] == codes[m.ip];
    }
    assert codes[m.ip + 1] == C.Encode(C.OpNil) by {
      assert codes[m.ip..m.ip + 2][1] == codes[m.ip + 1];
    }
    StepIs(m, C.OpDefineGlobal);
    var m1 := m.(ip := m.ip + 1);
    StepLiteral(m1, C.OpNil);
    ExecTwo(m, m1, m1.(ip := m1.ip + 1, stack := m.stack + [Nil]));
  }
}

=== FILE: values.dfy ===
/** Runtime values and heap objects (value.h, object.h, and the object arena of vm.h).

    A `Value` is a closed union of a number, a boolean, nil and a reference to a heap
    object. References never own: they are indices into an append-only arena that the
    VM owns for its whole lifetime.
 */
module Values {

  /** The payload of a `Number`. IEEE doubles are modelled as exact reals. */
  type Num = real

  datatype Value =
    | Number(n: Num)
    | Bool(b: bool)
    | Nil
    | Obj(ref: nat)

  /** The tag of a value, in the order of the source's enum. */
  datatype ValueType = TBool | TNil | TNumber | TObject

  /** The tag of a value: each alternative has its own tag, so a tag test decides the
      alternative and extracting the payload after it is safe. */
  function GetType(v: Value): (t: ValueType)
    ensures t == TNumber <==> v.Number?
    ensures t == TBool <==> v.Bool?
    ensures t == TNil <==> v.Nil?
    ensures t == TObject <==> v.Obj?
  {
    match v
    case Number(_) => TNumber
    case Bool(_) => TBool
    case Nil => TNil
    case Obj(_) => TObject
  }

  /** Values with equal tags are built from the same alternative. */
  lemma SameTypeSameAlternative(a: Value, b: Value)
    requires GetType(a) == GetType(b)
    ensures a.Number? <==> b.Number?
    ensures a.Bool? <==> b.Bool?
    ensures a.Nil? <==> b.Nil?
    ensures a.Obj? <==> b.Obj?
  {
  }

  /** String is the only object kind. */
  datatype ObjectType = String

  /** A heap object; the only kind is a string object holding its characters. */
  datatype Object = StringObject(str: string) {
    function Type(): ObjectType {
      String
    }
  }

  /** The VM-wide arena that owns every heap object. */
  type Arena = seq<Object>

  /** Appends an object to the arena and returns the reference naming it. */
  function AddObject(arena: Arena, o: Object): (r: (Arena, nat))
    ensures r.1 < |r.0| && r.0[r.1] == o
    ensures |r.0| == |arena| + 1
    ensures r.0[..|arena|] == arena
  {
    (arena + [o], |arena|)
  }

  /** Every reference among `vs` names a slot of an arena of size `n`. */
  predicate RefsIn(vs: seq<Value>, n: nat) {
    forall i :: 0 <= i < |vs| && vs[i].Obj? ==> vs[i].ref < n
  }
}

=== FILE: vm.dfy ===
/** The stack machine (vm.h, vm.cpp): a dispatch loop over the bytes of a chunk with a
    value stack and the object arena.

    The C++ loop mutates the VM in place and signals a runtime error by throwing
    `std::runtime_error`; here one instruction is a function from a machine to a step
    result, and a runtime error is a result value. Paths on which the C++ program has
    undefined behaviour or dies of an uncaught exception (popping an empty stack,
    `.at()` out of range, reading past the last byte) are excluded by `CanStep`.
 */
module Vm {
  import opened Wrappers
  import opened Values
  import C = Chunks
  import Compiler

  datatype InterpretResult = InterpretOk | InterpretCompileError | InterpretRuntimeError

  /** The VM's state: the chunk being run, the offset of the next byte, the value
      stack and the object arena. */
  datatype Machine = Machine(chunk: C.Chunk, ip: nat, stack: seq<Value>, objects: Arena)

  /** The offset stays within the code, and every object reference on the stack or in
      the pool names a slot of the arena. */
  predicate Valid(m: Machine) {
    && m.ip <= |m.chunk.codes|
    && RefsIn(m.stack, |m.objects|)
    && RefsIn(m.chunk.constants, |m.objects|)
  }

  // ---------------------------------------------------------------------------
  // The stack

  function Push(m: Machine, v: Value): (r: Machine)
    ensures r.stack == m.stack + [v]
    ensures r == m.(stack := r.stack)
    ensures Valid(m) && RefOk(m.objects, v) ==> Valid(r)
  {
    m.(stack := m.stack + [v])
  }

  /** Removes and returns the top of the stack; the stack must not be empty. */
  function Pop(m: Machine): (r: (Value, Machine))
    requires |m.stack| > 0
    ensures r.0 == m.stack[|m.stack| - 1] && r.1.stack == m.stack[..|m.stack| - 1]
    ensures r.1 == m.(stack := r.1.stack)
  {
    (m.stack[|m.stack| - 1], m.(stack := m.stack[..|m.stack| - 1]))
  }

  /** Popping after a push returns the value pushed and the machine as it was. */
  lemma PushPop(m: Machine, v: Value)
    ensures Pop(Push(m, v)) == (v, m)
  {
    assert (m.stack + [v])[..|m.stack|] == m.stack;
  }

  /** `resetStack`, which `init` and every runtime error call. */
  function ResetStack(m: Machine): (r: Machine)
    ensures r.stack == [] && r == m.(stack := [])
  {
    m.(stack := [])
  }

  // ---------------------------------------------------------------------------
  // Truthiness and equality

  /** Only `false` and nil are falsey among the non-objects. An object reference is
      never null, and the source answers `o != nullptr` for it, so every object is
      falsey as well. */
  function IsFalsey(v: Value): (r: bool)
    ensures r <==> !(v == Bool(true) || v.Number?)
  {
    match v
    case Bool(b) => !b
    case Number(_) => false
    case Nil => true
    case Obj(_) => true
  }

  /** What a value is compared as: strings by their characters, everything else by
      its payload. */
  datatype Denotation = DNumber(n: Num) | DBool(b: bool) | DNil | DString(s: string)

  predicate RefOk(objects: Arena, v: Value) {
    v.Obj? ==> v.ref < |objects|
  }

  function Denote(objects: Arena, v: Value): Denotation
    requires RefOk(objects, v)
  {
    match v
    case Number(n) => DNumber(n)
    case Bool(b) => DBool(b)
    case Nil => DNil
    case Obj(ref) => DString(objects[ref].str)
  }

  /** Values of different tags are unequal; nil equals nil; booleans and numbers
      compare by value and strings by content. */
  function ValuesEqual(objects: Arena, a: Value, b: Value): (r: bool)
    requires RefOk(objects, a) && RefOk(objects, b)
    ensures r <==> Denote(objects, a) == Denote(objects, b)
  {
    if GetType(a) != GetType(b) then false
    else
      match GetType(a)
      case TBool => a.b == b.b
      case TNil => true
      case TNumber => a.n == b.n
      case TObject =>
        var objA := objects[a.ref];
        var objB := objects[b.ref];
        // Strings are the only kind of object, so the identity comparison the source
        // falls back on for other kinds is never reached.
        if objA.Type() != objB.Type() then false
        else objA.str == objB.str
  }

  /** Equality of values is an equivalence. */
  lemma ValuesEqualIsEquivalence(objects: Arena, a: Value, b: Value, c: Value)
    requires RefOk(objects, a) && RefOk(objects, b) && RefOk(objects, c)
    ensures ValuesEqual(objects, a, a)
    ensures ValuesEqual(objects, a, b) == ValuesEqual(objects, b, a)
    ensures ValuesEqual(objects, a, b) && ValuesEqual(objects, b, c) ==> ValuesEqual(objects, a, c)
  {
  }

  // ---------------------------------------------------------------------------
  // Instructions

  /** The arithmetic and comparison instantiations of `binaryOp`. */
  datatype Arith = Greater | Less | Add | Subtract | Multiply | Divide

  /** `Op()(a, b)` with doubles read as reals. Division by zero, where IEEE gives an
      infinity or NaN, is given the placeholder 0. */
  function ApplyArith(op: Arith, a: Num, b: Num): (v: Value)
    ensures op in {Greater, Less} <==> v.Bool?
    ensures op !in {Greater, Less} ==> v.Number?
  {
    match op
    case Greater => Bool(a > b)
    case Less => Bool(a < b)
    case Add => Number(a + b)
    case Subtract => Number(a - b)
    case Multiply => Number(a * b)
    case Divide => Number(if b == 0.0 then 0.0 else a / b)
  }

  /** What one instruction does: continue with a new machine, return from the script
      (RETURN), or fail with a runtime error message. */
  datatype StepResult =
    | Next(m: Machine)
    | Returned(m: Machine)
    | Failed(message: string, line: Option<nat>, m: Machine)

  /** The line `runtimeError` reports for the instruction at `instruction`: it indexes
      the run-length line table directly with the byte offset, so it reads a run
      length or a line number of some run rather than the instruction's line. An
      offset past the table, which the source reads unchecked, gives None. */
  function ReportedLine(lines: seq<nat>, instruction: int): (r: Option<nat>)
    ensures r.Some? <==> 0 <= instruction < |lines|
    ensures r.Some? ==> r.value == lines[instruction]
  {
    if 0 <= instruction < |lines| then Some(lines[instruction]) else None
  }

  /** `runtimeError`, called once the opcode byte has been read: the message is
      reported with a line and the stack emptied. */
  function RuntimeError(m: Machine, message: string): (r: StepResult)
    ensures r.Failed? && r.message == message && r.m.stack == [] && r.m == m.(stack := [])
    ensures r.line == ReportedLine(m.chunk.lines, m.ip - 1)
  {
    Failed(message, ReportedLine(m.chunk.lines, m.ip - 1), ResetStack(m))
  }

  /** `binaryOp` reads the top (`peek(0)`) before the value under it (`peek(1)`), so a
      non-number on top fails even when nothing lies under it; anything else needs
      two values. */
  predicate BinaryDefined(stack: seq<Value>) {
    |stack| >= 1 && (stack[|stack| - 1].Number? ==> |stack| >= 2)
  }

  function BinaryOp(m: Machine, op: Arith): (r: StepResult)
    requires Valid(m) && BinaryDefined(m.stack)
    ensures r.Next? || r.Failed?
    ensures Valid(r.m)
    ensures r.Failed? <==> !m.stack[|m.stack| - 1].Number? || !m.stack[|m.stack| - 2].Number?
    ensures r.Failed? ==> r.message == "Operand must be a number." && r.m == ResetStack(m)
    ensures r.Next? ==> var n := |m.stack|;
                        r.m == m.(stack := m.stack[..n - 2] + [ApplyArith(op, m.stack[n - 2].n, m.stack[n - 1].n)])
  {
    var n := |m.stack|;
    if !m.stack[n - 1].Number? || !m.stack[n - 2].Number? then
      RuntimeError(m, "Operand must be a number.")
    else
      var b := Pop(m);
      var a := Pop(b.1);
      assert a.1.stack == m.stack[..n - 2];
      Next(Push(a.1, ApplyArith(op, a.0.n, b.0.n)))
  }

  /** The next instruction is defined: there is a byte to read and, when it is an
      opcode, what that opcode reads is there. */
  predicate CanStep(m: Machine) {
    && m.ip < |m.chunk.codes|
    && var op := C.Decode(m.chunk.codes[m.ip]);
       op.Some? ==> CanExecute(m.(ip := m.ip + 1), op.value)
  }

  /** What `op` needs once its own byte has been read: CONSTANT an operand naming a
      pool entry, and the others the values they pop or peek. */
  predicate CanExecute(m: Machine, op: C.OpCode) {
    match op
    case OpConstant => m.ip < |m.chunk.codes| && m.chunk.codes[m.ip] < |m.chunk.constants|
    case OpEqual => |m.stack| >= 2
    case OpGreater => BinaryDefined(m.stack)
    case OpLess => BinaryDefined(m.stack)
    case OpAdd => BinaryDefined(m.stack)
    case OpSubtract => BinaryDefined(m.stack)
    case OpMultiply => BinaryDefined(m.stack)
    case OpDivide => BinaryDefined(m.stack)
    case OpNot => |m.stack| >= 1
    case OpNegate => |m.stack| >= 1
    case OpReturn => |m.stack| >= 1
    case _ => true
  }

  /** Executes the instruction at `ip`. */
  function Step(m: Machine): (r: StepResult)
    requires Valid(m) && CanStep(m)
    ensures r.m.chunk == m.chunk && r.m.objects == m.objects
    ensures r.Next? ==> Valid(r.m) && r.m.ip > m.ip
    ensures r.Failed? ==> r.m.stack == []
  {
    var m1 := m.(ip := m.ip + 1);
    match C.Decode(m.chunk.codes[m.ip])
    case Some(op) => Execute(m1, op)
    case None => Next(m1)
  }

  /** EQUAL: pops two values and pushes whether they are equal. */
  function Equal(m: Machine): (r: StepResult)
    requires Valid(m) && |m.stack| >= 2
    ensures var n := |m.stack|;
            r == Next(m.(stack := m.stack[..n - 2] + [Bool(ValuesEqual(m.objects, m.stack[n - 2], m.stack[n - 1]))]))
    ensures Valid(r.m)
  {
    var b := Pop(m);
    var a := Pop(b.1);
    assert a.1.stack == m.stack[..|m.stack| - 2];
    Next(Push(a.1, Bool(ValuesEqual(m.objects, a.0, b.0))))
  }

  /** NOT: replaces the top by whether it is falsey. */
  function Not(m: Machine): (r: StepResult)
    requires Valid(m) && |m.stack| >= 1
    ensures r == Next(m.(stack := m.stack[..|m.stack| - 1] + [Bool(IsFalsey(m.stack[|m.stack| - 1]))]))
    ensures Valid(r.m)
  {
    var v := Pop(m);
    Next(Push(v.1, Bool(IsFalsey(v.0))))
  }

  /** NEGATE: negates a number on top in place; anything else is a runtime error. */
  function Negate(m: Machine): (r: StepResult)
    requires Valid(m) && |m.stack| >= 1
    ensures var top := m.stack[|m.stack| - 1];
            && (top.Number? ==> r == Next(m.(stack := m.stack[..|m.stack| - 1] + [Number(-top.n)])))
            && (!top.Number? ==> r == RuntimeError(m, "Operand must be a number."))
    ensures r.Next? ==> Valid(r.m)
  {
    var top := m.stack[|m.stack| - 1];
    if top.Number? then
      var r := Next(m.(stack := m.stack[|m.stack| - 1 := Number(-top.n)]));
      assert r.m.stack == m.stack[..|m.stack| - 1] + [Number(-top.n)];
      r
    else RuntimeError(m, "Operand must be a number.")
  }

  /** Executes `op`, whose byte has been read. POP, PRINT and DEFINE_GLOBAL have no
      case in the dispatch, nor do bytes that are no opcode: they only move past
      their own byte, so an operand after DEFINE_GLOBAL is then executed as an
      instruction. */
  function Execute(m: Machine, op: C.OpCode): (r: StepResult)
    requires Valid(m) && CanExecute(m, op)
    ensures r.m.chunk == m.chunk && r.m.objects == m.objects
    ensures r.Next? ==> Valid(r.m) && r.m.ip >= m.ip
    ensures r.Failed? ==> r.m.stack == []
  {
    match op
    case OpConstant =>
      var idx := m.chunk.codes[m.ip];
      Next(Push(m.(ip := m.ip + 1), m.chunk.constants[idx]))
    case OpNil => Next(Push(m, Nil))
    case OpTrue => Next(Push(m, Bool(true)))
    case OpFalse => Next(Push(m, Bool(false)))
    case OpPop => Next(m)
    case OpDefineGlobal => Next(m)
    case OpEqual => Equal(m)
    case OpGreater => BinaryOp(m, Greater)
    case OpLess => BinaryOp(m, Less)
    case OpAdd => BinaryOp(m, Add)
    case OpSubtract => BinaryOp(m, Subtract)
    case OpMultiply => BinaryOp(m, Multiply)
    case OpDivide => BinaryOp(m, Divide)
    case OpNot => Not(m)
    case OpNegate => Negate(m)
    case OpPrint => Next(m)
    case OpReturn => Returned(Pop(m).1)
  }

  /** How a run ends: with a result, or at an instruction whose behaviour is undefined
      in the source (the machine is left just before it). */
  datatype Outcome = Finished(result: InterpretResult, m: Machine) | Undefined(m: Machine)

  /** The dispatch loop of `run`. */
  function Run(m: Machine): (r: Outcome)
    requires Valid(m)
    ensures r.m.chunk == m.chunk && r.m.objects == m.objects
    ensures r.Finished? ==> r.result != InterpretCompileError
    ensures r.Finished? && r.result == InterpretRuntimeError ==> r.m.stack == []
    ensures r.Undefined? ==> Valid(r.m) && !CanStep(r.m)
    decreases |m.chunk.codes| - m.ip
  {
    if !CanStep(m) then Undefined(m)
    else
      match Step(m)
      case Next(m') => Run(m')
      case Returned(m') => Finished(InterpretOk, m')
      case Failed(_, _, m') => Finished(InterpretRuntimeError, m')
  }

  /** RETURN with nothing on the stack has no defined behaviour. */
  lemma ReturnOnEmptyStack(m: Machine)
    requires Valid(m) && m.ip < |m.chunk.codes| && m.chunk.codes[m.ip] == C.Encode(C.OpReturn)
    requires m.stack == []
    ensures Run(m) == Undefined(m)
  {
    C.DecodeEncode(C.OpReturn, 0);
  }

  /** `interpret`: compiles `src` into a fresh chunk, allocating its strings in the
      VM's arena, and runs it from the first byte on the VM's stack as it is. When
      compilation fails nothing runs: the chunk and the stack stay as they were,
      though the arena keeps the strings allocated meanwhile. */
  function Interpret(m: Machine, src: string): (r: Outcome)
    requires RefsIn(m.stack, |m.objects|)
    ensures (r.Finished? && r.result == InterpretCompileError) <==> !Compiler.Compile(src, m.objects).ok
    ensures r.Finished? && r.result == InterpretCompileError ==> r.m.stack == m.stack && r.m.chunk == m.chunk
    ensures m.objects <= r.m.objects
  {
    var compiled := Compiler.Compile(src, m.objects);
    if !compiled.ok then Finished(InterpretCompileError, m.(objects := compiled.objects))
    else
      assert RefsIn(m.stack, |compiled.objects|);
      Run(Machine(compiled.chunk, 0, m.stack, compiled.objects))
  }

  /** `init`: an empty stack. */
  function Init(m: Machine): (r: Machine)
    ensures r.stack == [] && r.chunk == m.chunk && r.ip == m.ip && r.objects == m.objects
  {
    ResetStack(m)
  }
}

=== FILE: wrappers.dfy ===
/** The optional-value type shared by the other modules. */
module Wrappers {

  datatype Option<+T> = None | Some(value: T) {

    /** The value held, or `default` when there is none. */
    function GetOr(default: T): T {
      match this
      case Some(v) => v
      case None => default
    }
  }
}
